=== FILE: README.md ===
# django-up deploy command, modelled in Dafny

django-up adds a `deploy` management command to a Django project. The command has three modes:

- `--init` copies an example `deploy.yml` descriptor into the project root.
- `--build` generates the project-root `gunicorn.conf.py` from a packaged template. It also splits the project's flat `settings.py` into a `settings` package with the modules `__init__.py`, `base.py`, `production.py` and `local.py`.
- The default mode checks that the build happened and that the local and pushed git revisions agree. It then opens an SSH connection and runs six remote steps in a fixed order, stopping at the first one that fails.

The model covers three parts of `djangoup/management/commands/deploy.py`:

- The template line rewriting: modules `Text` and `Templates`.
  - Python's `re.match(r'(.*) = (.*)', line)` is modelled exactly. A line matches when the text before its first newline contains `" = "`, and the assigned name is that text up to the last occurrence.
  - Iterating over a file opened with `open(path, 'r')` becomes `ReadLines`. It applies Python's universal-newline translation first (`Translate`: a `\r\n` pair and a lone `\r` each become `\n`) and then splits at `\n` (`SplitLines`). `writelines` becomes `Join`. Reading back what was written gives the same lines.
- The build phase over a filesystem model: modules `Files` and `Build`, with lemmas in `BuildLemmas`.
  - The model includes the rollback taken when `settings.py` cannot be opened.
  - Every Python exception that escapes the command becomes an explicit `Aborted` result. The result carries the files written before the exception.
- The deploy gate and the remote provisioning pipeline: modules `Remote` and `Deploy`, with lemmas in `PipelineLemmas` and `DeployLemmas`.
  - The SSH connection is an oracle. It maps the list of commands issued so far to the exit code and the parsed integer output of the last one.
  - The local shell is an oracle from the issued commands to the last command's standard output.
  - Every step reports the exact command strings it issued.

The parsed descriptor is a parameter, a `Descriptor` or `None`. Its values are kept as the text `'{}'.format(value)` produces, so a missing key reads as `None`. The command's own directory, which holds the packaged templates, is the path parameter `pkg`.

Behaviour of the code worth knowing, all of it modelled:

- A successful deploy never closes the SSH connection. Only the failure path closes it, once. `HandleDeploy` states `closes == 0` for `Deployed`.
- When `settings.py` is missing, the rollback removes the whole configuration folder `{root}/{project_name}`, not just the new `settings` package (deploy.py:376).
- The configuration folder is `'{}/{}'.format(root, project_name)` (deploy.py:81). An empty `project_name` or `.` makes it the project root itself.
  - With an empty name the rollback deletes the whole project, including `deploy.yml`, `.gitignore` and `gunicorn.conf.py`.
  - With `.` the rollback runs `shutil.rmtree('{root}/.')`. It deletes everything inside the project, then its final `os.rmdir` refuses the path ending in `.` and raises. The build aborts and leaves the project root as an empty directory.
- When `.gitignore` cannot be opened for appending, `production.py` and `local.py` have already been written. They stay behind when the build aborts.
- The exit codes of the two listing commands and of the pid query are never looked at. Step success depends only on the commands that follow them.
- Only an empty or missing descriptor is rejected (deploy.py:68, deploy.py:141). No single field is validated.

## Model

| member | source | states |
|---|---|---|
| Text.AssignName | djangoup/management/commands/deploy.py:370-371 | the regex matches a line exactly when `" = "` occurs before its first newline; the captured name is the unique text before the last such occurrence |
| Text.AssignsToUnique | djangoup/management/commands/deploy.py:419-421 | a matching line assigns to at most one name (`AssignName` supplies the name when the line matches) |
| Text.Translate | djangoup/management/commands/deploy.py:369 | reading in text mode turns a `\r\n` pair and a lone `\r` each into `\n`; the text read holds no `\r` and is never longer than the file |
| Text.TranslateKeepsPlain | djangoup/management/commands/deploy.py:369 | text without `\r` is read unchanged |
| Text.TranslateLineEnds | djangoup/management/commands/deploy.py:369 | `a\r\nb\rc` is read as `a\nb\nc` |
| Text.SplitLinesWellFormed | djangoup/management/commands/deploy.py:369-372 | text is cut after each `\n` into well-formed lines: each is non-empty, holds a newline at most as its last character, and every line but the last ends in one |
| Text.ReadLines | djangoup/management/commands/deploy.py:369-372 | the lines iteration yields are well-formed, hold no `\r`, and together are the translated file text |
| Text.ReadLinesTranslates | djangoup/management/commands/deploy.py:369-372 | a file holding `a\r\nb\rc` iterates as the three lines `a\n`, `b\n`, `c` |
| Text.JoinSplitLines | djangoup/management/commands/deploy.py:369-373 | cutting a text at its newlines and writing the pieces back reproduces the text, so writing the lines a file iterates over gives its translated text |
| Text.SplitJoinLines | djangoup/management/commands/deploy.py:418-423 | cutting the concatenation of well-formed lines at its newlines gives back those lines |
| Text.ReadJoinLines | djangoup/management/commands/deploy.py:418-423 | iterating over a file written from well-formed lines without `\r` gives back those lines |
| Text.JoinInOrder | djangoup/management/commands/deploy.py:373 | repeated `writelines(line)` (`Join`) writes the lines one after another: the first `i` lines come first and the rest follow them |
| Text.IntToStringRoundTrip | djangoup/management/commands/deploy.py:313-316 | the pid text put into `kill -9 {}` reads back as the same integer |
| Text.IntToStringInjective | djangoup/management/commands/deploy.py:313-316 | different pids give different kill commands |
| Templates.GunicornSetting | djangoup/management/commands/deploy.py:433-442 | a value exists exactly for the four recognised names; `workers` gets the bare descriptor value, the other three a value in single quotes |
| Templates.ReplaceGunicornLine | djangoup/management/commands/deploy.py:426-447 | `bind`, `worker_class` and `pidfile` become `name = 'value'\n` and `workers` becomes `workers = value\n`, each with the descriptor's value; any other name returns the line unchanged |
| Templates.RewriteGunicornLine | djangoup/management/commands/deploy.py:418-423 | a line that does not match, or that assigns to an unrecognised name, is copied unchanged; a line assigning to one of the four names is replaced by that name's setting line |
| Templates.RewriteGunicornLines | djangoup/management/commands/deploy.py:418-423 | one output line per template line; unrecognised lines are unchanged and recognised ones become `name = setting\n` |
| Templates.GunicornFile | djangoup/management/commands/deploy.py:414-423 | the text written is the template read in text mode and rewritten line for line; a template with no gunicorn setting is written back with its line ends translated |
| Templates.GunicornFileLines | djangoup/management/commands/deploy.py:414-423 | for single-line descriptor values, the generated file read back in text mode gives the template's lines rewritten one by one, so the line count is preserved |
| Templates.GunicornFileIdempotent | djangoup/management/commands/deploy.py:414-423 | for single-line descriptor values, generating `gunicorn.conf.py` from an already generated file reproduces that file |
| Templates.GunicornLineIdempotent | djangoup/management/commands/deploy.py:426-447 | rewriting an already rewritten line changes nothing |
| Templates.GunicornRewriteIdempotent | djangoup/management/commands/deploy.py:418-423 | rewriting an already rewritten sequence of template lines changes none of them |
| Templates.NewBaseDirSingleLine | djangoup/management/commands/deploy.py:381-383 | the replacement `BASE_DIR` line contains neither `\n` nor `\r` |
| Templates.NewBaseDirAssignsBaseDir | djangoup/management/commands/deploy.py:381-383 | the line written in place of `BASE_DIR` itself matches the assignment pattern with the name exactly `BASE_DIR` |
| Templates.SettingsLineIdempotent | djangoup/management/commands/deploy.py:370-372 | rewriting an already rewritten settings line changes nothing |
| Templates.SettingsFileIdempotent | djangoup/management/commands/deploy.py:364-373 | generating `base.py` from an already generated `base.py` gives the same contents |
| Templates.RewriteSettingsLine | djangoup/management/commands/deploy.py:370-372 | a line assigning to exactly `BASE_DIR` becomes the fixed deeper-nesting line plus `\n`; every other line is unchanged |
| Templates.RewriteSettingsLines | djangoup/management/commands/deploy.py:369-373 | line count preserved; only `BASE_DIR` lines are replaced |
| Templates.SettingsFile | djangoup/management/commands/deploy.py:364-373 | `base.py` is `settings.py` read in text mode and rewritten line for line; without a `BASE_DIR` assignment it is `settings.py` with its line ends translated |
| Templates.SettingsFileLines | djangoup/management/commands/deploy.py:364-373 | `base.py` read back in text mode gives the lines of `settings.py` rewritten one by one |
| Templates.CarriageReturnLines | djangoup/management/commands/deploy.py:369 | a lone `\r` ends a line when the file is read, just as `\n` does |
| Templates.CarriageReturnNewlineLines | djangoup/management/commands/deploy.py:369 | a `\r\n` pair ends one line when the file is read, for any two lines |
| Templates.SettingsFileAfterCarriageReturn | djangoup/management/commands/deploy.py:369-373 | a `BASE_DIR` assignment after an old-Mac line end is still replaced, and the line before it is written with `\n` |
| Files.Read | djangoup/management/commands/deploy.py:369 | opening for reading succeeds exactly on a regular file and gives its contents; `FileNotFoundError` exactly when nothing is at the path |
| Files.Write | djangoup/management/commands/deploy.py:369 | opening for writing fails only on a directory; the file then holds exactly the text written and nothing else changes |
| Files.RemoveFile | djangoup/management/commands/deploy.py:402-406 | `os.remove` deletes exactly that file and keeps every other file and directory |
| Files.MakeDirs | djangoup/management/commands/deploy.py:350-352 | `os.makedirs` fails on an existing path or when a file is in the way; otherwise it creates the path and its ancestors and nothing else |
| Files.RemoveTree | djangoup/management/commands/deploy.py:376 | `shutil.rmtree` succeeds exactly on a directory, removes everything under it, and keeps every other file |
| Files.ClearTree | djangoup/management/commands/deploy.py:376 | `shutil.rmtree` on a directory spelled `{p}/.` removes everything strictly inside `p` but leaves `p` itself a directory, and keeps every file outside `p`; on a non-directory it changes nothing |
| Files.Append | djangoup/management/commands/deploy.py:398-399 | append mode adds the text after the old contents, or after nothing when the file is new |
| Files.CopyFile | djangoup/management/commands/deploy.py:386-390 | the target holds the source's text; fails when the source is missing |
| Build.ConfigFolder | djangoup/management/commands/deploy.py:80-81 | an empty project name or `.` denotes the project root itself; any other name is one component below the root |
| Build.HandleInit | djangoup/management/commands/deploy.py:44-55 | an existing `deploy.yml` is left alone; otherwise the example is copied in |
| Build.GenerateGunicornConfigFile | djangoup/management/commands/deploy.py:408-423 | `gunicorn.conf.py` holds the rewritten template and no other file changes |
| Build.GunicornStep | djangoup/management/commands/deploy.py:73-78 | an existing `gunicorn.conf.py` is kept; a missing one is generated |
| Build.GenerateNewSettingsFile | djangoup/management/commands/deploy.py:354-378 | the split succeeds exactly when the `__init__.py` template and `settings.py` are files and neither `__init__.py` nor `base.py` is a directory; on success, `__init__.py` is the template and `base.py` the rewritten `settings.py`; a missing `settings.py` removes the whole configuration folder and keeps every file outside it, except when the folder is spelled `{root}/.`: then everything inside it is deleted, the folder stays, and the exception is raised |
| Build.Rollback | djangoup/management/commands/deploy.py:374-377 | the rollback succeeds exactly when the configuration folder is a directory not spelled `{root}/.`; for `{root}/.` it always raises, after emptying the folder |
| Build.FinishSettings | djangoup/management/commands/deploy.py:386-406 | `production.py` and `local.py` become copies of `base.py`, the ignore entry is appended, and `settings.py` is removed. An exception part-way keeps what was written: nothing, then `production.py`, then both copies |
| Build.BuildSettings | djangoup/management/commands/deploy.py:80-97 | an existing settings folder means nothing is done |
| Build.HandleBuild | djangoup/management/commands/deploy.py:57-99 | a missing `deploy.yml` or an empty descriptor stops the build before anything is written |
| BuildLemmas.BuildRollback | djangoup/management/commands/deploy.py:80-90 | after the rollback, `settings.py` was absent and nothing under the configuration folder remains. Only `gunicorn.conf.py` may have changed outside that folder. For a proper project name `.gitignore` is as it was; for an empty name the whole project, `deploy.yml` and `.gitignore` included, is gone. The name `.` never ends this way |
| BuildLemmas.BuildRollbackWhenSettingsMissing | djangoup/management/commands/deploy.py:363-377 | a missing `settings.py` with everything else in place does lead to the rollback, for every project name except `.` |
| BuildLemmas.BuildDotNameEmptiesRoot | djangoup/management/commands/deploy.py:354-378 | with `project_name: "."` and no `settings.py` the build aborts; the project root is left an empty directory and every file outside it is kept |
| BuildLemmas.BuildSucceeds | djangoup/management/commands/deploy.py:57-99 | a build whose inputs are present and whose outputs are not in the way ends in "Successfully Build files": `deploy.yml` is a non-empty descriptor, `gunicorn.conf.py` exists or can be generated, the settings package is new and can be created, the two sources are files, and nothing written is a directory; the only name excluded is `.gitignore`, which `os.makedirs` turns into a directory |
| BuildLemmas.BuildCreatesSettingsPackage | djangoup/management/commands/deploy.py:83-94 | a successful split writes the four modules and appends `/{project_name}/settings/local.py\n` to `.gitignore` exactly once. `settings.py` is gone |
| BuildLemmas.BuildGunicornFile | djangoup/management/commands/deploy.py:73-90 | when the build succeeds, or rolls back a proper configuration folder, `gunicorn.conf.py` is the old file or the freshly generated one; a rollback of a configuration folder that is the root removes it |
| Remote.MkdirCommand | djangoup/management/commands/deploy.py:216-219 | `mkdir -p ` followed by exactly the path |
| Remote.CountCommand | djangoup/management/commands/deploy.py:229-231 | `ls -1 {path}`, its output piped into `wc -l` |
| Remote.CloneCommand | djangoup/management/commands/deploy.py:237 | `git clone {repo_url}`, ending with the server project path |
| Remote.PullCommand | djangoup/management/commands/deploy.py:238 | starts with `cd {project path} && git pull ` and ends with `{remote} {branch}` |
| Remote.CloneIsNotPull | djangoup/management/commands/deploy.py:237-242 | the clone and the pull command always differ, so the trace shows which branch the project step took |
| Remote.VirtualenvCommand | djangoup/management/commands/deploy.py:259 | `{python} -m virtualenv -p ` with the interpreter, ending with the venv path |
| Remote.PipCommand | djangoup/management/commands/deploy.py:265 | starts with `{venv}/bin/pip install -r {project path}` and ends with `/requirements.txt` |
| Remote.MigrateCommand | djangoup/management/commands/deploy.py:280 | the venv's python runs `{project path}/manage.py migrate` |
| Remote.CollectStaticCommand | djangoup/management/commands/deploy.py:295 | the venv's python runs `{project path}/manage.py collectstatic`, and the command ends with `--no-input`, so it never waits for an answer |
| Remote.PidCommand | djangoup/management/commands/deploy.py:311 | a test for the pid file that falls back to `echo 0` |
| Remote.KillCommand | djangoup/management/commands/deploy.py:315 | `kill -9 ` followed by the pid's decimal text, from which the pid reads back |
| Remote.KillCommandInjective | djangoup/management/commands/deploy.py:315 | killing different pids issues different commands |
| Remote.StartCommand | djangoup/management/commands/deploy.py:321-323 | starts with `cd {project path} && DJANGO_SETTINGS_MODULE=`, which is followed by `{project_name}.settings `, and ends with ` {project_name}.wsgi:application` |
| Remote.KillIsNotStart | djangoup/management/commands/deploy.py:315-325 | the kill command is never the start command |
| Remote.RunStep | djangoup/management/commands/deploy.py:165-329 | every step issues at least one command and succeeds exactly when every command from its first checked one on exits 0: all of them for the folder, migration and asset steps, all but the listing or pid query for the others |
| Remote.BuildServerFolders | djangoup/management/commands/deploy.py:211-222 | both `mkdir -p` commands are issued before either exit code is looked at; success iff both exit 0 |
| Remote.BuildProjectOnServer | djangoup/management/commands/deploy.py:224-245 | count 0 issues `git clone {url} {path}`, any other count `cd {path} && git pull {remote} {branch}`; success iff that command exits 0 |
| Remote.BuildVenvOnServer | djangoup/management/commands/deploy.py:247-270 | the virtualenv is created only for count 0; a failed creation ends the step before pip; otherwise pip always runs; success iff every command after the listing exits 0 |
| Remote.RunMigrations | djangoup/management/commands/deploy.py:272-285 | one `migrate` command; success iff it exits 0 |
| Remote.GenerateAssetsCollect | djangoup/management/commands/deploy.py:287-300 | one `collectstatic` command; success iff it exits 0 |
| Remote.RunGunicornService | djangoup/management/commands/deploy.py:302-329 | pid 0 issues no kill; another pid issues `kill -9 {pid}`, and a failed kill ends the step before the start command; success iff every command after the pid query exits 0 |
| Remote.RunSteps | djangoup/management/commands/deploy.py:165-209 | the steps that ran are a prefix of the list; all but the last succeeded, and the run stops early only at a failure; each step saw the commands of the earlier ones |
| Remote.ChainedAt | djangoup/management/commands/deploy.py:165-209 | the k-th step ran after exactly the commands of the steps before it |
| Remote.BuildServerStructure | djangoup/management/commands/deploy.py:165-209 | folders, project, venv, migrations, assets and gunicorn run in that order; success only when all six ran |
| PipelineLemmas.FailedRunEndsWithFailedStep | djangoup/management/commands/deploy.py:165-209 | a failed run's trace ends with the commands of its failing step |
| PipelineLemmas.StepFailureIsLast | djangoup/management/commands/deploy.py:224-329 | every step except the folder step fails on its last issued command |
| PipelineLemmas.FailureEndsTrace | djangoup/management/commands/deploy.py:165-209 | after a failure, the remote trace ends with the failing command, or is exactly the two `mkdir -p` commands |
| PipelineLemmas.SuccessTrace | djangoup/management/commands/deploy.py:165-209 | a successful run starts with the two `mkdir -p` commands and ends with the gunicorn start command |
| Deploy.SelectMode | djangoup/management/commands/deploy.py:33-42 | `--init` wins over `--build`; with neither flag the command deploys |
| Deploy.CheckRequirements | djangoup/management/commands/deploy.py:134-153 | the first failing check in order (`deploy.yml`, descriptor, `gunicorn.conf.py`, settings folder) is reported; ready iff all four hold |
| Deploy.RunGitTasks | djangoup/management/commands/deploy.py:155-163 | `git rev-parse HEAD` then `git rev-parse {remote}/{branch}`; in sync iff their outputs are equal |
| Deploy.HandleDeploy | djangoup/management/commands/deploy.py:101-132 | a failed check or differing revisions issue no remote command and open no connection. Otherwise the connection goes to (`server_ip`, `server_user`, `server_ssh_port`) from the descriptor (deploy.py:121-123). A failed server build closes the connection once; success closes it zero times |
| DeployLemmas.DeployedExactly | djangoup/management/commands/deploy.py:101-132 | a deploy succeeds iff the checks pass, the revisions agree and all six steps succeed |
| DeployLemmas.DeployTrace | djangoup/management/commands/deploy.py:124-132 | on success the remote trace starts with the folders and ends with the gunicorn start; on a failure after the folder step its last command exited non-zero |
| DeployLemmas.NothingRunsAfterFailure | djangoup/management/commands/deploy.py:125-130 | once a step fails no later step runs, the deploy reports the server-build failure, and the connection is closed once |

## Left out

- YAML parsing of `deploy.yml` (deploy.py:336-347) belongs to an external library. The parsed descriptor is a parameter. The default mode parses the file twice (deploy.py:140, 112), and both reads are taken to give the same result.
- The SSH transport (`fabric2.Connection`) and the local `invoke.run` are replaced by oracles. The transport raising on a non-zero exit, timeouts and network errors are not modelled.
- `int(stdout)` of the listing and pid commands (deploy.py:232, 257, 313) is taken as already parsed by the oracle. The `ValueError` on non-numeric output is not modelled.
- Console messages on stdout and stderr are diagnostics only and are not modelled.
- `settings.BASE_DIR`, argparse registration and the Django `BaseCommand` plumbing (deploy.py:13-31) are not modelled. `Deploy.SelectMode` models only the flag dispatch.
- Paths are component sequences. An empty `project_name` and `.` both denote the root, and the rollback tells them apart by spelling. Any other name is one component. A name containing `/`, or equal to `..`, is not modelled.
- Writing in text mode turns `\n` into `os.linesep`. The model takes the POSIX `\n`.
- `open(..., 'w')` failing because a parent directory is missing is not modelled. Only writing onto a directory fails.
- File permissions, encodings and I/O errors other than a missing file or a wrong file kind are not modelled.
- `setup.py` is packaging metadata with no logic.
- Templates.GunicornFileLines: the line-count statement assumes descriptor values contain no `\n` or `\r`. A multi-line YAML value would add lines to the output.
- Templates.GunicornFileIdempotent: holds only for single-line descriptor values. The lines a multi-line value adds are read as template lines by a second pass and may be rewritten.
- BuildLemmas.BuildRollbackWhenSettingsMissing: when the project root is the filesystem root (the empty path) and the project name is empty, the root must already be listed as a directory. `os.makedirs` never creates the empty path. The lemma excludes the name `.`, whose rollback raises instead; `BuildLemmas.BuildDotNameEmptiesRoot` states that case.
- Deploy.TargetOf: the connection parameters are the descriptor's values as text. The source passes the raw YAML values to `Connection`, such as an integer port or `None`, not their formatted text.

=== FILE: build.dfy ===
/**
 * The `--init` and `--build` modes of the deploy command: scaffolding
 * `deploy.yml`, generating `gunicorn.conf.py`, and splitting the project's
 * `settings.py` into a `settings` package (`__init__.py`, `base.py`,
 * `production.py`, `local.py`), with the rollback taken when `settings.py`
 * cannot be opened.
 */
module Build {
  import opened Wrappers
  import opened Descriptors
  import opened Templates
  import opened Files

  // ---------------------------------------------------------------------------
  // Paths

  function DeployFile(root: Path): Path { root + ["deploy.yml"] }

  function GunicornConf(root: Path): Path { root + ["gunicorn.conf.py"] }

  function Gitignore(root: Path): Path { root + [".gitignore"] }

  /** The project name denotes the directory it is joined to: `{root}/` or `{root}/.`. */
  predicate NamesRoot(d: Descriptor) {
    d.Get(ProjectName) == "" || DotName(d)
  }

  /** The configuration folder is spelled `{root}/.`, a path `os.rmdir` refuses. */
  predicate DotName(d: Descriptor) {
    d.Get(ProjectName) == "."
  }

  /**
   * The project's configuration package, `'{}/{}'.format(root, project_name)`.
   * An empty name or `.` makes that the project root itself.
   */
  function ConfigFolder(root: Path, d: Descriptor): (cfg: Path)
    ensures NamesRoot(d) ==> cfg == root
    ensures !NamesRoot(d) ==> |cfg| == |root| + 1 && cfg[..|root|] == root && cfg[|root|] == d.Get(ProjectName)
  {
    if NamesRoot(d) then root else root + [d.Get(ProjectName)]
  }

  /** The settings package inside a configuration folder, and its modules. */
  function PackageFolder(cfg: Path): Path { cfg + ["settings"] }

  function PackageModule(cfg: Path, name: string): Path { PackageFolder(cfg) + [name] }

  /** The flat settings module the package replaces. */
  function FlatSettings(cfg: Path): Path { cfg + ["settings.py"] }

  function SettingsFolder(root: Path, d: Descriptor): Path { PackageFolder(ConfigFolder(root, d)) }

  function OldSettings(root: Path, d: Descriptor): Path { FlatSettings(ConfigFolder(root, d)) }

  function SettingsModule(root: Path, d: Descriptor, name: string): Path { PackageModule(ConfigFolder(root, d), name) }

  /** The templates shipped in the command's own directory `pkg`. */
  function ExampleDeployFile(pkg: Path): Path { pkg + ["deploy.example.yml"] }

  function GunicornTemplate(pkg: Path): Path { pkg + ["gunicorn.conf.py"] }

  function SettingsInitTemplate(pkg: Path): Path { pkg + ["settings_init.example.py"] }

  /** The line appended to `.gitignore`: the local settings module, relative to the project root. */
  function GitignoreEntry(d: Descriptor): string {
    "/" + d.Get(ProjectName) + "/settings/local.py\n"
  }

  // ---------------------------------------------------------------------------
  // --init

  /** `handle_init_command`: copies the example descriptor unless `deploy.yml` is already a file. */
  function HandleInit(fs: FS, root: Path, pkg: Path): (r: Io<FS>)
    ensures IsFile(fs, DeployFile(root)) ==> r == Done(fs)
    ensures !IsFile(fs, DeployFile(root)) && r.Done? ==>
              IsFile(fs, ExampleDeployFile(pkg)) &&
              r.value.files == fs.files[DeployFile(root) := fs.files[ExampleDeployFile(pkg)]]
    ensures !IsFile(fs, DeployFile(root)) ==>
              (r.Done? <==> IsFile(fs, ExampleDeployFile(pkg)) && !IsDir(fs, DeployFile(root)))
  {
    if IsFile(fs, DeployFile(root)) then Done(fs)
    else CopyFile(fs, ExampleDeployFile(pkg), DeployFile(root))
  }

  // ---------------------------------------------------------------------------
  // --build

  /** `generate_gunicorn_config_file`: the template rewritten into `{root}/gunicorn.conf.py`. */
  function GenerateGunicornConfigFile(fs: FS, d: Descriptor, root: Path, pkg: Path): (r: Io<FS>)
    ensures r.Done? <==> IsFile(fs, GunicornTemplate(pkg)) && !IsDir(fs, GunicornConf(root))
    ensures r.Done? ==> r.value.dirs == fs.dirs
    ensures r.Done? ==>
              r.value.files == fs.files[GunicornConf(root) := GunicornFile(fs.files[GunicornTemplate(pkg)], d)]
  {
    match Read(fs, GunicornTemplate(pkg))
    case Done(template) => Write(fs, GunicornConf(root), GunicornFile(template, d))
    case NotFound => NotFound
    case Failed => Failed
  }

  /** How `generate_new_settings_file` ends: `True`, `False` after the rollback, or an exception. */
  datatype SplitOutcome = Split(fs: FS) | RolledBack(fs: FS) | Raised(fs: FS)

  /**
   * `generate_new_settings_file`: copies the package `__init__.py`, then
   * writes `base.py` from `settings.py`. A `FileNotFoundError` while opening
   * the two files removes the whole configuration folder `cfg`; `dotted` says
   * that folder's path is spelled `{root}/.`, which `shutil.rmtree` empties
   * but cannot remove.
   */
  function GenerateNewSettingsFile(fs: FS, cfg: Path, pkg: Path, dotted: bool): (r: SplitOutcome)
    ensures r.Split? <==>
              && IsFile(fs, SettingsInitTemplate(pkg)) && !IsDir(fs, PackageModule(cfg, "__init__.py"))
              && IsFile(fs, FlatSettings(cfg)) && !IsDir(fs, PackageModule(cfg, "base.py"))
    ensures r.Split? ==>
              && IsFile(fs, FlatSettings(cfg)) && IsFile(fs, SettingsInitTemplate(pkg))
              && r.fs.dirs == fs.dirs
              && r.fs.files == fs.files[PackageModule(cfg, "__init__.py") := fs.files[SettingsInitTemplate(pkg)]]
                                       [PackageModule(cfg, "base.py") := SettingsFile(fs.files[FlatSettings(cfg)])]
    ensures r.RolledBack? ==>
              && !dotted
              && !Exists(fs, FlatSettings(cfg))
              && (forall q :: Under(q, cfg) ==> !Exists(r.fs, q))
              && (forall q :: !Under(q, cfg) && q in fs.files ==> q in r.fs.files && r.fs.files[q] == fs.files[q])
              && r.fs.files.Keys <= fs.files.Keys + {PackageModule(cfg, "__init__.py")}
    ensures IsFile(fs, SettingsInitTemplate(pkg)) && !IsDir(fs, PackageModule(cfg, "__init__.py"))
            && !Exists(fs, FlatSettings(cfg)) && IsDir(fs, cfg) && !dotted
            ==> r.RolledBack?
    ensures IsFile(fs, SettingsInitTemplate(pkg)) && !IsDir(fs, PackageModule(cfg, "__init__.py"))
            && !Exists(fs, FlatSettings(cfg)) && IsDir(fs, cfg) && dotted
            ==> && r.Raised? && IsDir(r.fs, cfg)
                && (forall q :: Under(q, cfg) && q != cfg ==> !Exists(r.fs, q))
                && (forall q :: !Under(q, cfg) && q in fs.files ==> q in r.fs.files && r.fs.files[q] == fs.files[q])
  {
    match CopyFile(fs, SettingsInitTemplate(pkg), PackageModule(cfg, "__init__.py"))
    case NotFound => Raised(fs)
    case Failed => Raised(fs)
    case Done(fs1) =>
      match Read(fs1, FlatSettings(cfg))
      case Done(source) =>
        (match Write(fs1, PackageModule(cfg, "base.py"), SettingsFile(source))
         case Done(fs2) => Split(fs2)
         case NotFound => Rollback(fs1, cfg, dotted)
         case Failed => Raised(fs1))
      case NotFound => Rollback(fs1, cfg, dotted)
      case Failed => Raised(fs1)
  }

  /**
   * The `except FileNotFoundError` branch: `shutil.rmtree(cfg)`, which itself
   * may raise. On a path spelled `{root}/.` it always raises, after emptying
   * the folder.
   */
  function Rollback(fs: FS, cfg: Path, dotted: bool): (r: SplitOutcome)
    ensures r.RolledBack? <==> !dotted && IsDir(fs, cfg)
    ensures !dotted && r.Raised? ==> r.fs == fs
    ensures dotted ==> r.Raised?
    ensures dotted && IsDir(fs, cfg) ==>
              IsDir(r.fs, cfg) && forall q :: Under(q, cfg) && q != cfg ==> !Exists(r.fs, q)
    ensures dotted ==> forall q :: !Under(q, cfg) && q in fs.files ==> q in r.fs.files && r.fs.files[q] == fs.files[q]
  {
    if dotted then Raised(ClearTree(fs, cfg))
    else
      match RemoveTree(fs, cfg)
      case Done(fs') => RolledBack(fs')
      case NotFound => Raised(fs)
      case Failed => Raised(fs)
  }

  /**
   * How the steps after the split end: all done, or interrupted by an
   * exception, with the files written up to that point.
   */
  datatype Progress = Completed(fs: FS) | Interrupted(fs: FS)

  /**
   * The build steps after a successful split: `generate_environment_files`,
   * `add_local_settings_to_gitignore`, `remove_old_settings_file`.
   */
  function FinishSettings(fs: FS, root: Path, d: Descriptor): (r: Progress)
    ensures r.fs.dirs == fs.dirs
    ensures r.Completed? <==>
              && IsFile(fs, SettingsModule(root, d, "base.py"))
              && !IsDir(fs, SettingsModule(root, d, "production.py"))
              && !IsDir(fs, SettingsModule(root, d, "local.py"))
              && !IsDir(fs, Gitignore(root))
    ensures r.Completed? ==>
              r.fs.files ==
                fs.files[SettingsModule(root, d, "production.py") := fs.files[SettingsModule(root, d, "base.py")]]
                        [SettingsModule(root, d, "local.py") := fs.files[SettingsModule(root, d, "base.py")]]
                        [Gitignore(root) := GitignoreBefore(fs, root) + GitignoreEntry(d)]
                - {OldSettings(root, d)}
    ensures !IsFile(fs, SettingsModule(root, d, "base.py")) || IsDir(fs, SettingsModule(root, d, "production.py"))
            ==> r == Interrupted(fs)
    ensures IsFile(fs, SettingsModule(root, d, "base.py")) && !IsDir(fs, SettingsModule(root, d, "production.py"))
            && IsDir(fs, SettingsModule(root, d, "local.py")) ==>
              r.Interrupted? &&
              r.fs.files == fs.files[SettingsModule(root, d, "production.py") := fs.files[SettingsModule(root, d, "base.py")]]
    ensures IsFile(fs, SettingsModule(root, d, "base.py")) && !IsDir(fs, SettingsModule(root, d, "production.py"))
            && !IsDir(fs, SettingsModule(root, d, "local.py")) && IsDir(fs, Gitignore(root)) ==>
              r.Interrupted? &&
              r.fs.files == fs.files[SettingsModule(root, d, "production.py") := fs.files[SettingsModule(root, d, "base.py")]]
                                    [SettingsModule(root, d, "local.py") := fs.files[SettingsModule(root, d, "base.py")]]
  {
    LastDiffers(PackageFolder(ConfigFolder(root, d)), "base.py", PackageFolder(ConfigFolder(root, d)), "production.py");
    var base := SettingsModule(root, d, "base.py");
    match CopyFile(fs, base, SettingsModule(root, d, "production.py"))
    case NotFound => Interrupted(fs)
    case Failed => Interrupted(fs)
    case Done(fs1) =>
      match CopyFile(fs1, base, SettingsModule(root, d, "local.py"))
      case NotFound => Interrupted(fs1)
      case Failed => Interrupted(fs1)
      case Done(fs2) =>
        match Append(fs2, Gitignore(root), GitignoreEntry(d))
        case NotFound => Interrupted(fs2)
        case Failed => Interrupted(fs2)
        case Done(fs3) =>
          Completed(if IsFile(fs3, OldSettings(root, d)) then RemoveFile(fs3, OldSettings(root, d)) else fs3)
  }

  /** What `.gitignore` holds before the append: nothing when it does not exist yet. */
  function GitignoreBefore(fs: FS, root: Path): string {
    if IsFile(fs, Gitignore(root)) then fs.files[Gitignore(root)] else ""
  }

  datatype BuildResult =
    | Built                  // "Successfully Build files"
    | DeployFileMissing      // deploy.yml is not a file
    | BadlyConfigured        // the parsed descriptor is empty or absent
    | SettingsSourceMissing  // settings.py could not be opened; rolled back
    | Aborted                // an exception escaped the command

  datatype BuildOutcome = BuildOutcome(result: BuildResult, fs: FS)

  /**
   * `handle_build_project_for_deploy`. `config` is what the descriptor parser
   * returned for `deploy.yml`.
   */
  function HandleBuild(fs: FS, root: Path, pkg: Path, config: Option<Descriptor>): (r: BuildOutcome)
    ensures r.result == DeployFileMissing <==> !IsFile(fs, DeployFile(root))
    ensures r.result == BadlyConfigured <==> IsFile(fs, DeployFile(root)) && !Configured(config)
    ensures r.result == DeployFileMissing || r.result == BadlyConfigured ==> r.fs == fs
  {
    if !IsFile(fs, DeployFile(root)) then BuildOutcome(DeployFileMissing, fs)
    else if !Configured(config) then BuildOutcome(BadlyConfigured, fs)
    else
      var d := config.value;
      match GunicornStep(fs, d, root, pkg)
      case NotFound => BuildOutcome(Aborted, fs)
      case Failed => BuildOutcome(Aborted, fs)
      case Done(fs1) => BuildSettings(fs1, root, pkg, d)
  }

  /**
   * The gunicorn half of the build: the file is generated only when it is not
   * already there, and an existing one is never touched.
   */
  function GunicornStep(fs: FS, d: Descriptor, root: Path, pkg: Path): (r: Io<FS>)
    ensures r.Done? <==> IsFile(fs, GunicornConf(root)) || (IsFile(fs, GunicornTemplate(pkg)) && !IsDir(fs, GunicornConf(root)))
    ensures r.Done? ==> r.value.dirs == fs.dirs
    ensures r.Done? ==> r.value.files.Keys == fs.files.Keys + {GunicornConf(root)}
    ensures r.Done? ==> forall q :: q in fs.files && q != GunicornConf(root) ==> r.value.files[q] == fs.files[q]
    ensures r.Done? ==> r.value.files[GunicornConf(root)] ==
                          (if IsFile(fs, GunicornConf(root)) then fs.files[GunicornConf(root)]
                           else GunicornFile(fs.files[GunicornTemplate(pkg)], d))
  {
    if !IsFile(fs, GunicornConf(root)) then GenerateGunicornConfigFile(fs, d, root, pkg) else Done(fs)
  }

  /** The settings half of the build, from the folder check on. */
  function BuildSettings(fs: FS, root: Path, pkg: Path, d: Descriptor): (r: BuildOutcome)
    ensures r.result != DeployFileMissing && r.result != BadlyConfigured
    ensures Exists(fs, SettingsFolder(root, d)) ==> r == BuildOutcome(Built, fs)
  {
    if Exists(fs, SettingsFolder(root, d)) then BuildOutcome(Built, fs)
    else
      match MakeDirs(fs, SettingsFolder(root, d))
      case NotFound => BuildOutcome(Aborted, fs)
      case Failed => BuildOutcome(Aborted, fs)
      case Done(fs2) =>
        match GenerateNewSettingsFile(fs2, ConfigFolder(root, d), pkg, DotName(d))
        case Raised(fs3) => BuildOutcome(Aborted, fs3)
        case RolledBack(fs3) => BuildOutcome(SettingsSourceMissing, fs3)
        case Split(fs3) =>
          match FinishSettings(fs3, root, d)
          case Completed(fs4) => BuildOutcome(Built, fs4)
          case Interrupted(fs4) => BuildOutcome(Aborted, fs4)
  }
}

=== FILE: build_lemmas.dfy ===
/**
 * What the `--build` mode guarantees about the filesystem it leaves behind:
 * the rollback when `settings.py` is missing, the finished settings package
 * otherwise, and the gunicorn file either kept or generated.
 */
module BuildLemmas {
  import opened Wrappers
  import opened Descriptors
  import opened Templates
  import opened Files
  import opened Build

  /**
   * When `settings.py` is missing the build removes the whole configuration
   * folder `{root}/{project_name}` and stops: nothing inside that folder is
   * left (so no `local.py` or `production.py`), `settings.py` was indeed
   * absent, and every other file except `gunicorn.conf.py` is untouched. For
   * a proper project name `.gitignore` is exactly as it was; for an empty name
   * the folder is the project root, so `deploy.yml`, `.gitignore` and
   * `gunicorn.conf.py` are gone too. The name `.` never ends this way: its
   * rollback raises (see `BuildDotNameEmptiesRoot`).
   */
  lemma BuildRollback(fs: FS, root: Path, pkg: Path, config: Option<Descriptor>)
    ensures var r := HandleBuild(fs, root, pkg, config);
            r.result == SettingsSourceMissing ==>
              && Configured(config) && !DotName(config.value)
              && !Exists(fs, OldSettings(root, config.value))
              && (forall q :: Under(q, ConfigFolder(root, config.value)) ==> !Exists(r.fs, q))
              && (forall q :: q in fs.files && !Under(q, ConfigFolder(root, config.value)) && q != GunicornConf(root)
                    ==> q in r.fs.files && r.fs.files[q] == fs.files[q])
              && (!NamesRoot(config.value) ==>
                    && (IsFile(r.fs, Gitignore(root)) <==> IsFile(fs, Gitignore(root)))
                    && (IsFile(fs, Gitignore(root)) ==> r.fs.files[Gitignore(root)] == fs.files[Gitignore(root)]))
              && (NamesRoot(config.value) ==>
                    && !Exists(r.fs, root) && !Exists(r.fs, DeployFile(root))
                    && !Exists(r.fs, Gitignore(root)) && !Exists(r.fs, GunicornConf(root)))
  {
    var r := HandleBuild(fs, root, pkg, config);
    if r.result == SettingsSourceMissing {
      var d := config.value;
      var cfg := ConfigFolder(root, d);
      var sf := SettingsFolder(root, d);
      var fs1 := GunicornStep(fs, d, root, pkg).value;
      assert BuildSettings(fs1, root, pkg, d) == r;
      var fs2 := MakeDirs(fs1, sf).value;
      assert GenerateNewSettingsFile(fs2, cfg, pkg, DotName(d)).RolledBack?;
      var g := Gitignore(root);
      LastDiffers(root, ".gitignore", root, "gunicorn.conf.py");
      LastDiffers(PackageFolder(cfg), "__init__.py", root, ".gitignore");
      LastDiffers(cfg, "settings.py", cfg, "settings");
      LastDiffers(root, "gunicorn.conf.py", cfg, "settings.py");
      assert !Exists(fs1, OldSettings(root, d));
      if NamesRoot(d) {
        assert Under(DeployFile(root), cfg) && Under(g, cfg) && Under(GunicornConf(root), cfg);
      } else if Under(g, cfg) {
        assert g == cfg;
        assert sf[..|cfg|] == cfg;
        assert g !in fs1.files;
      }
    }
  }

  /**
   * The rollback is taken whenever the build reaches the settings split with
   * `settings.py` absent: the descriptor is present and non-empty, the
   * gunicorn file exists or can be generated, the settings folder does not
   * exist yet and can be created, and the package `__init__.py` template ships
   * with the command. A configuration folder that is the project root must be
   * a directory for `rmtree` to succeed; `os.makedirs` has created it unless
   * the root is the empty path.
   */
  lemma BuildRollbackWhenSettingsMissing(fs: FS, root: Path, pkg: Path, d: Descriptor)
    requires IsFile(fs, DeployFile(root)) && d.fields != map[]
    requires IsFile(fs, GunicornConf(root)) || (IsFile(fs, GunicornTemplate(pkg)) && !IsDir(fs, GunicornConf(root)))
    requires d.Get(ProjectName) != "gunicorn.conf.py"
    requires NamesRoot(d) && root == [] ==> IsDir(fs, root)
    requires !Exists(fs, SettingsFolder(root, d)) && !IsDir(fs, SettingsModule(root, d, "__init__.py"))
    requires forall k :: 1 <= k < |SettingsFolder(root, d)| ==> SettingsFolder(root, d)[..k] !in fs.files
    requires IsFile(fs, SettingsInitTemplate(pkg))
    requires !Exists(fs, OldSettings(root, d))
    requires !DotName(d)
    ensures HandleBuild(fs, root, pkg, Some(d)).result == SettingsSourceMissing
  {
    var cfg := ConfigFolder(root, d);
    var sf := SettingsFolder(root, d);
    var fs1 := GunicornStep(fs, d, root, pkg).value;
    LastDiffers(root, "gunicorn.conf.py", PackageFolder(cfg), "__init__.py");
    LastDiffers(root, "gunicorn.conf.py", pkg, "settings_init.example.py");
    LastDiffers(root, "gunicorn.conf.py", cfg, "settings.py");
    LastDiffers(root, "gunicorn.conf.py", cfg, "settings");
    LastDiffers(root, "gunicorn.conf.py", root, d.Get(ProjectName));
    assert forall k :: 1 <= k < |sf| ==> sf[..k] !in fs1.files by {
      forall k | 1 <= k < |sf| ensures sf[..k] !in fs1.files {
        if k == |sf| - 1 {
          assert sf[..k] == cfg;
        } else {
          assert sf[..k] == root[..k];
          assert |sf[..k]| < |GunicornConf(root)|;
        }
      }
    }
    assert !Exists(fs1, sf) && !IsDir(fs1, SettingsModule(root, d, "__init__.py"));
    assert IsFile(fs1, SettingsInitTemplate(pkg)) && !Exists(fs1, OldSettings(root, d));
    SettingsRollbackWhenMissing(fs1, root, pkg, d);
  }

  /** The settings half of the build rolls back when `settings.py` is absent. */
  lemma SettingsRollbackWhenMissing(fs: FS, root: Path, pkg: Path, d: Descriptor)
    requires NamesRoot(d) && root == [] ==> IsDir(fs, root)
    requires !Exists(fs, SettingsFolder(root, d)) && !IsDir(fs, SettingsModule(root, d, "__init__.py"))
    requires forall k :: 1 <= k < |SettingsFolder(root, d)| ==> SettingsFolder(root, d)[..k] !in fs.files
    requires IsFile(fs, SettingsInitTemplate(pkg))
    requires !Exists(fs, OldSettings(root, d))
    requires !DotName(d)
    ensures BuildSettings(fs, root, pkg, d).result == SettingsSourceMissing
  {
    var cfg := ConfigFolder(root, d);
    var sf := SettingsFolder(root, d);
    var fs2 := MakeDirs(fs, sf).value;
    assert sf[..|cfg|] == cfg;
    assert IsDir(fs2, cfg);
    LastDiffers(cfg, "settings.py", cfg, "settings");
    assert !(FlatSettings(cfg) <= sf);
    assert !Exists(fs2, FlatSettings(cfg));
    assert GenerateNewSettingsFile(fs2, cfg, pkg, DotName(d)).RolledBack?;
  }

  /**
   * With `project_name: "."` and no `settings.py` the rollback runs
   * `shutil.rmtree('{root}/.')`: it deletes everything in the project, then
   * refuses to remove `{root}/.` and raises. The build aborts, the project
   * root is left as an empty directory, and files outside it are untouched.
   */
  lemma BuildDotNameEmptiesRoot(fs: FS, root: Path, pkg: Path, d: Descriptor)
    requires IsFile(fs, DeployFile(root)) && d.fields != map[]
    requires IsFile(fs, GunicornConf(root)) || (IsFile(fs, GunicornTemplate(pkg)) && !IsDir(fs, GunicornConf(root)))
    requires DotName(d)
    requires root == [] ==> IsDir(fs, root)
    requires !Exists(fs, SettingsFolder(root, d)) && !IsDir(fs, SettingsModule(root, d, "__init__.py"))
    requires forall k :: 1 <= k < |SettingsFolder(root, d)| ==> SettingsFolder(root, d)[..k] !in fs.files
    requires IsFile(fs, SettingsInitTemplate(pkg))
    requires !Exists(fs, OldSettings(root, d))
    ensures var r := HandleBuild(fs, root, pkg, Some(d));
            && r.result == Aborted
            && IsDir(r.fs, root)
            && (forall q :: Under(q, root) && q != root ==> !Exists(r.fs, q))
            && (forall q :: q in fs.files && !Under(q, root) ==> q in r.fs.files && r.fs.files[q] == fs.files[q])
  {
    var sf := SettingsFolder(root, d);
    var fs1 := GunicornStep(fs, d, root, pkg).value;
    assert ConfigFolder(root, d) == root;
    LastDiffers(root, "gunicorn.conf.py", root, "settings");
    LastDiffers(root, "gunicorn.conf.py", PackageFolder(root), "__init__.py");
    LastDiffers(root, "gunicorn.conf.py", pkg, "settings_init.example.py");
    LastDiffers(root, "gunicorn.conf.py", root, "settings.py");
    assert forall k :: 1 <= k < |sf| ==> sf[..k] !in fs1.files by {
      forall k | 1 <= k < |sf| ensures sf[..k] !in fs1.files {
        assert sf[..k] == root[..k];
        assert |sf[..k]| < |GunicornConf(root)|;
      }
    }
    assert !Exists(fs1, sf) && !IsDir(fs1, SettingsModule(root, d, "__init__.py"));
    assert IsFile(fs1, SettingsInitTemplate(pkg)) && !Exists(fs1, OldSettings(root, d));
    SettingsDotEmptiesRoot(fs1, root, pkg, d);
    assert forall q :: q in fs.files && !Under(q, root) ==> q in fs1.files && fs1.files[q] == fs.files[q];
  }

  /** The settings half of the build with the name `.` and no `settings.py`. */
  lemma SettingsDotEmptiesRoot(fs: FS, root: Path, pkg: Path, d: Descriptor)
    requires DotName(d)
    requires root == [] ==> IsDir(fs, root)
    requires !Exists(fs, SettingsFolder(root, d)) && !IsDir(fs, SettingsModule(root, d, "__init__.py"))
    requires forall k :: 1 <= k < |SettingsFolder(root, d)| ==> SettingsFolder(root, d)[..k] !in fs.files
    requires IsFile(fs, SettingsInitTemplate(pkg))
    requires !Exists(fs, OldSettings(root, d))
    ensures var r := BuildSettings(fs, root, pkg, d);
            && r.result == Aborted
            && IsDir(r.fs, root)
            && (forall q :: Under(q, root) && q != root ==> !Exists(r.fs, q))
            && (forall q :: q in fs.files && !Under(q, root) ==> q in r.fs.files && r.fs.files[q] == fs.files[q])
  {
    var sf := SettingsFolder(root, d);
    assert ConfigFolder(root, d) == root;
    var fs2 := MakeDirs(fs, sf).value;
    assert sf[..|root|] == root;
    assert IsDir(fs2, root);
    LastDiffers(root, "settings.py", root, "settings");
    assert !(FlatSettings(root) <= sf);
    assert !Exists(fs2, FlatSettings(root));
    assert GenerateNewSettingsFile(fs2, root, pkg, true).Raised?;
  }

  /** What the split leaves for the finishing steps, in terms of the files before the build. */
  lemma SplitContents(fs: FS, root: Path, pkg: Path, d: Descriptor, fs1: FS, fs2: FS, fs3: FS)
    requires GunicornStep(fs, d, root, pkg) == Done(fs1)
    requires MakeDirs(fs1, SettingsFolder(root, d)) == Done(fs2)
    requires GenerateNewSettingsFile(fs2, ConfigFolder(root, d), pkg, DotName(d)) == Split(fs3)
    ensures IsFile(fs, OldSettings(root, d)) && IsFile(fs, SettingsInitTemplate(pkg))
    ensures IsFile(fs3, SettingsModule(root, d, "__init__.py"))
    ensures fs3.files[SettingsModule(root, d, "__init__.py")] == fs.files[SettingsInitTemplate(pkg)]
    ensures IsFile(fs3, SettingsModule(root, d, "base.py"))
    ensures fs3.files[SettingsModule(root, d, "base.py")] == SettingsFile(fs.files[OldSettings(root, d)])
    ensures GitignoreBefore(fs3, root) == GitignoreBefore(fs, root)
    ensures IsFile(fs3, GunicornConf(root))
    ensures fs3.files[GunicornConf(root)] ==
              if IsFile(fs, GunicornConf(root)) then fs.files[GunicornConf(root)]
              else GunicornFile(fs.files[GunicornTemplate(pkg)], d)
  {
    SplitSettingsContents(fs, root, pkg, d, fs1, fs2, fs3);
    SplitKeepsRootFiles(fs, root, pkg, d, fs1, fs2, fs3);
  }

  /** The split writes the package's two modules from the files before the build. */
  lemma SplitSettingsContents(fs: FS, root: Path, pkg: Path, d: Descriptor, fs1: FS, fs2: FS, fs3: FS)
    requires GunicornStep(fs, d, root, pkg) == Done(fs1)
    requires MakeDirs(fs1, SettingsFolder(root, d)) == Done(fs2)
    requires GenerateNewSettingsFile(fs2, ConfigFolder(root, d), pkg, DotName(d)) == Split(fs3)
    ensures IsFile(fs, OldSettings(root, d)) && IsFile(fs, SettingsInitTemplate(pkg))
    ensures IsFile(fs3, SettingsModule(root, d, "__init__.py"))
    ensures fs3.files[SettingsModule(root, d, "__init__.py")] == fs.files[SettingsInitTemplate(pkg)]
    ensures IsFile(fs3, SettingsModule(root, d, "base.py"))
    ensures fs3.files[SettingsModule(root, d, "base.py")] == SettingsFile(fs.files[OldSettings(root, d)])
  {
    var cfg := ConfigFolder(root, d);
    var sf := SettingsFolder(root, d);
    LastDiffers(root, "gunicorn.conf.py", cfg, "settings.py");
    LastDiffers(root, "gunicorn.conf.py", pkg, "settings_init.example.py");
    LastDiffers(sf, "__init__.py", sf, "base.py");
  }

  /** The split leaves `.gitignore` as it was and the gunicorn config as the first step wrote it. */
  lemma SplitKeepsRootFiles(fs: FS, root: Path, pkg: Path, d: Descriptor, fs1: FS, fs2: FS, fs3: FS)
    requires GunicornStep(fs, d, root, pkg) == Done(fs1)
    requires MakeDirs(fs1, SettingsFolder(root, d)) == Done(fs2)
    requires GenerateNewSettingsFile(fs2, ConfigFolder(root, d), pkg, DotName(d)) == Split(fs3)
    ensures GitignoreBefore(fs3, root) == GitignoreBefore(fs, root)
    ensures IsFile(fs3, GunicornConf(root))
    ensures fs3.files[GunicornConf(root)] ==
              if IsFile(fs, GunicornConf(root)) then fs.files[GunicornConf(root)]
              else GunicornFile(fs.files[GunicornTemplate(pkg)], d)
  {
    SplitKeepsGitignore(fs, root, pkg, d, fs1, fs2, fs3);
    var sf := SettingsFolder(root, d);
    LastDiffers(sf, "__init__.py", root, "gunicorn.conf.py");
    LastDiffers(sf, "base.py", root, "gunicorn.conf.py");
  }

  lemma SplitKeepsGitignore(fs: FS, root: Path, pkg: Path, d: Descriptor, fs1: FS, fs2: FS, fs3: FS)
    requires GunicornStep(fs, d, root, pkg) == Done(fs1)
    requires MakeDirs(fs1, SettingsFolder(root, d)) == Done(fs2)
    requires GenerateNewSettingsFile(fs2, ConfigFolder(root, d), pkg, DotName(d)) == Split(fs3)
    ensures GitignoreBefore(fs3, root) == GitignoreBefore(fs, root)
  {
    var sf := SettingsFolder(root, d);
    LastDiffers(root, "gunicorn.conf.py", root, ".gitignore");
    LastDiffers(sf, "__init__.py", root, ".gitignore");
    LastDiffers(sf, "base.py", root, ".gitignore");
  }

  /** What the finishing steps write, in terms of the files they start from. */
  lemma FinishContents(fs3: FS, root: Path, d: Descriptor, fs4: FS)
    requires FinishSettings(fs3, root, d) == Completed(fs4)
    requires IsFile(fs3, SettingsModule(root, d, "__init__.py"))
    ensures IsFile(fs4, SettingsModule(root, d, "__init__.py"))
    ensures fs4.files[SettingsModule(root, d, "__init__.py")] == fs3.files[SettingsModule(root, d, "__init__.py")]
    ensures IsFile(fs4, SettingsModule(root, d, "base.py"))
    ensures fs4.files[SettingsModule(root, d, "base.py")] == fs3.files[SettingsModule(root, d, "base.py")]
    ensures IsFile(fs4, SettingsModule(root, d, "production.py"))
    ensures fs4.files[SettingsModule(root, d, "production.py")] == fs3.files[SettingsModule(root, d, "base.py")]
    ensures IsFile(fs4, SettingsModule(root, d, "local.py"))
    ensures fs4.files[SettingsModule(root, d, "local.py")] == fs3.files[SettingsModule(root, d, "base.py")]
    ensures IsFile(fs4, Gitignore(root))
    ensures fs4.files[Gitignore(root)] == GitignoreBefore(fs3, root) + GitignoreEntry(d)
    ensures !IsFile(fs4, OldSettings(root, d))
    ensures IsFile(fs3, GunicornConf(root)) ==>
              IsFile(fs4, GunicornConf(root)) && fs4.files[GunicornConf(root)] == fs3.files[GunicornConf(root)]
  {
    FinishKeepsModules(fs3, root, d, fs4);
    FinishWritesCopies(fs3, root, d, fs4);
    FinishKeepsGunicorn(fs3, root, d, fs4);
  }

  lemma FinishKeepsModules(fs3: FS, root: Path, d: Descriptor, fs4: FS)
    requires FinishSettings(fs3, root, d) == Completed(fs4)
    requires IsFile(fs3, SettingsModule(root, d, "__init__.py"))
    ensures IsFile(fs4, SettingsModule(root, d, "__init__.py"))
    ensures fs4.files[SettingsModule(root, d, "__init__.py")] == fs3.files[SettingsModule(root, d, "__init__.py")]
    ensures IsFile(fs4, SettingsModule(root, d, "base.py"))
    ensures fs4.files[SettingsModule(root, d, "base.py")] == fs3.files[SettingsModule(root, d, "base.py")]
  {
    var cfg := ConfigFolder(root, d);
    var sf := SettingsFolder(root, d);
    LastDiffers(sf, "__init__.py", sf, "production.py");
    LastDiffers(sf, "__init__.py", sf, "local.py");
    LastDiffers(sf, "__init__.py", root, ".gitignore");
    LastDiffers(sf, "__init__.py", cfg, "settings.py");
    LastDiffers(sf, "base.py", sf, "production.py");
    LastDiffers(sf, "base.py", sf, "local.py");
    LastDiffers(sf, "base.py", root, ".gitignore");
    LastDiffers(sf, "base.py", cfg, "settings.py");
  }

  lemma FinishWritesCopies(fs3: FS, root: Path, d: Descriptor, fs4: FS)
    requires FinishSettings(fs3, root, d) == Completed(fs4)
    requires IsFile(fs3, SettingsModule(root, d, "__init__.py"))
    ensures IsFile(fs4, SettingsModule(root, d, "production.py"))
    ensures fs4.files[SettingsModule(root, d, "production.py")] == fs3.files[SettingsModule(root, d, "base.py")]
    ensures IsFile(fs4, SettingsModule(root, d, "local.py"))
    ensures fs4.files[SettingsModule(root, d, "local.py")] == fs3.files[SettingsModule(root, d, "base.py")]
    ensures IsFile(fs4, Gitignore(root))
    ensures fs4.files[Gitignore(root)] == GitignoreBefore(fs3, root) + GitignoreEntry(d)
  {
    var cfg := ConfigFolder(root, d);
    var sf := SettingsFolder(root, d);
    LastDiffers(sf, "production.py", sf, "local.py");
    LastDiffers(sf, "production.py", root, ".gitignore");
    LastDiffers(sf, "production.py", cfg, "settings.py");
    LastDiffers(sf, "local.py", root, ".gitignore");
    LastDiffers(sf, "local.py", cfg, "settings.py");
    LastDiffers(root, ".gitignore", cfg, "settings.py");
  }

  lemma FinishKeepsGunicorn(fs3: FS, root: Path, d: Descriptor, fs4: FS)
    requires FinishSettings(fs3, root, d) == Completed(fs4)
    requires IsFile(fs3, SettingsModule(root, d, "__init__.py"))
    ensures !IsFile(fs4, OldSettings(root, d))
    ensures IsFile(fs3, GunicornConf(root)) ==>
              IsFile(fs4, GunicornConf(root)) && fs4.files[GunicornConf(root)] == fs3.files[GunicornConf(root)]
  {
    var cfg := ConfigFolder(root, d);
    var sf := SettingsFolder(root, d);
    LastDiffers(sf, "production.py", root, "gunicorn.conf.py");
    LastDiffers(sf, "local.py", root, "gunicorn.conf.py");
    LastDiffers(root, ".gitignore", root, "gunicorn.conf.py");
    LastDiffers(cfg, "settings.py", root, "gunicorn.conf.py");
  }

  /**
   * A build that creates the settings package leaves it complete: `__init__.py`
   * from the shipped template, `base.py` rewritten from `settings.py`,
   * `production.py` and `local.py` copies of `base.py`, the local module
   * appended once to `.gitignore`, and `settings.py` gone.
   */
  lemma BuildCreatesSettingsPackage(fs: FS, root: Path, pkg: Path, d: Descriptor)
    ensures var r := HandleBuild(fs, root, pkg, Some(d));
            r.result == Built && !Exists(fs, SettingsFolder(root, d)) ==>
              && IsFile(fs, OldSettings(root, d)) && IsFile(fs, SettingsInitTemplate(pkg))
              && IsFile(r.fs, SettingsModule(root, d, "__init__.py"))
              && r.fs.files[SettingsModule(root, d, "__init__.py")] == fs.files[SettingsInitTemplate(pkg)]
              && IsFile(r.fs, SettingsModule(root, d, "base.py"))
              && r.fs.files[SettingsModule(root, d, "base.py")] == SettingsFile(fs.files[OldSettings(root, d)])
              && IsFile(r.fs, SettingsModule(root, d, "production.py"))
              && r.fs.files[SettingsModule(root, d, "production.py")] == r.fs.files[SettingsModule(root, d, "base.py")]
              && IsFile(r.fs, SettingsModule(root, d, "local.py"))
              && r.fs.files[SettingsModule(root, d, "local.py")] == r.fs.files[SettingsModule(root, d, "base.py")]
              && IsFile(r.fs, Gitignore(root))
              && r.fs.files[Gitignore(root)] == GitignoreBefore(fs, root) + GitignoreEntry(d)
              && !IsFile(r.fs, OldSettings(root, d))
  {
    var r := HandleBuild(fs, root, pkg, Some(d));
    if r.result == Built && !Exists(fs, SettingsFolder(root, d)) {
      var sf := SettingsFolder(root, d);
      var fs1 := GunicornStep(fs, d, root, pkg).value;
      LastDiffers(root, "gunicorn.conf.py", ConfigFolder(root, d), "settings");
      assert !Exists(fs1, sf);
      var fs2 := MakeDirs(fs1, sf).value;
      var fs3 := GenerateNewSettingsFile(fs2, ConfigFolder(root, d), pkg, DotName(d)).fs;
      SplitContents(fs, root, pkg, d, fs1, fs2, fs3);
      FinishContents(fs3, root, d, r.fs);
    }
  }

  /**
   * The build succeeds when everything it reads is there and nothing it
   * writes is in the way: `deploy.yml` parses to a non-empty descriptor,
   * `gunicorn.conf.py` exists or can be generated, the settings package does
   * not exist yet and can be created, and `settings.py` and the shipped
   * `__init__.py` template are files. A project named `.gitignore` is the one
   * name that fails: `os.makedirs` turns `.gitignore` into a directory.
   */
  lemma BuildSucceeds(fs: FS, root: Path, pkg: Path, config: Option<Descriptor>)
    requires IsFile(fs, DeployFile(root)) && Configured(config)
    requires var d := config.value;
             || IsFile(fs, GunicornConf(root))
             || (IsFile(fs, GunicornTemplate(pkg)) && !IsDir(fs, GunicornConf(root))
                 && d.Get(ProjectName) != "gunicorn.conf.py")
    requires var sf := SettingsFolder(root, config.value);
             !Exists(fs, sf) && forall k :: 1 <= k < |sf| ==> sf[..k] !in fs.files
    requires IsFile(fs, SettingsInitTemplate(pkg)) && IsFile(fs, OldSettings(root, config.value))
    requires forall m :: m in PackageModules ==> !IsDir(fs, SettingsModule(root, config.value, m))
    requires !IsDir(fs, Gitignore(root)) && config.value.Get(ProjectName) != ".gitignore"
    ensures HandleBuild(fs, root, pkg, config).result == Built
  {
    var d := config.value;
    var sf := SettingsFolder(root, d);
    var fs1 := GunicornStep(fs, d, root, pkg).value;
    var cfg := ConfigFolder(root, d);
    assert sf[..|cfg|] == cfg;
    assert forall k :: 1 <= k < |sf| ==> sf[..k] !in fs1.files;
    LastDiffers(root, "gunicorn.conf.py", cfg, "settings");
    LastDiffers(root, "gunicorn.conf.py", cfg, "settings.py");
    assert sf !in fs1.files;
    assert IsFile(fs1, SettingsInitTemplate(pkg)) && IsFile(fs1, OldSettings(root, d));
    SettingsSucceed(fs1, root, pkg, d);
  }

  /** The module names of the settings package. */
  const PackageModules: set<string> := {"__init__.py", "base.py", "production.py", "local.py"}

  /** The settings half of `BuildSucceeds`. */
  lemma SettingsSucceed(fs: FS, root: Path, pkg: Path, d: Descriptor)
    requires var sf := SettingsFolder(root, d);
             !Exists(fs, sf) && forall k :: 1 <= k < |sf| ==> sf[..k] !in fs.files
    requires IsFile(fs, SettingsInitTemplate(pkg)) && IsFile(fs, OldSettings(root, d))
    requires forall m :: m in PackageModules ==> !IsDir(fs, SettingsModule(root, d, m))
    requires !IsDir(fs, Gitignore(root)) && d.Get(ProjectName) != ".gitignore"
    ensures BuildSettings(fs, root, pkg, d).result == Built
  {
    var sf := SettingsFolder(root, d);
    var cfg := ConfigFolder(root, d);
    var fs2 := MakeDirs(fs, sf).value;
    assert forall m :: m in PackageModules ==> SettingsModule(root, d, m) !in fs2.dirs by {
      forall m | m in PackageModules ensures SettingsModule(root, d, m) !in fs2.dirs {
        assert !(SettingsModule(root, d, m) <= sf);
      }
    }
    assert sf[|root|] != ".gitignore" by {
      assert sf[..|cfg|] == cfg;
    }
    assert Gitignore(root)[|root|] == ".gitignore";
    assert !(Gitignore(root) <= sf);
    assert !IsDir(fs2, PackageModule(cfg, "__init__.py")) && !IsDir(fs2, PackageModule(cfg, "base.py"));
    var fs3 := GenerateNewSettingsFile(fs2, cfg, pkg, DotName(d)).fs;
    assert GenerateNewSettingsFile(fs2, cfg, pkg, DotName(d)).Split?;
    assert fs3.dirs == fs2.dirs;
    assert !IsDir(fs3, SettingsModule(root, d, "production.py"));
    assert !IsDir(fs3, SettingsModule(root, d, "local.py"));
    assert FinishSettings(fs3, root, d).Completed?;
  }

  /**
   * Past the descriptor checks, a build that does not raise leaves
   * `gunicorn.conf.py` in place: untouched when it already existed, generated
   * from the shipped template otherwise. The one exception is the rollback
   * for a project name denoting the root, which removes it with the rest of
   * the project.
   */
  lemma BuildGunicornFile(fs: FS, root: Path, pkg: Path, d: Descriptor)
    ensures var r := HandleBuild(fs, root, pkg, Some(d));
            r.result == Built || (r.result == SettingsSourceMissing && !NamesRoot(d)) ==>
              && IsFile(r.fs, GunicornConf(root))
              && r.fs.files[GunicornConf(root)] ==
                   if IsFile(fs, GunicornConf(root)) then fs.files[GunicornConf(root)]
                   else GunicornFile(fs.files[GunicornTemplate(pkg)], d)
    ensures var r := HandleBuild(fs, root, pkg, Some(d));
            r.result == SettingsSourceMissing && NamesRoot(d) ==> !IsFile(r.fs, GunicornConf(root))
  {
    var r := HandleBuild(fs, root, pkg, Some(d));
    if r.result == SettingsSourceMissing && NamesRoot(d) {
      BuildRollback(fs, root, pkg, Some(d));
    } else if r.result == Built || r.result == SettingsSourceMissing {
      var fs1 := GunicornStep(fs, d, root, pkg).value;
      assert r == BuildSettings(fs1, root, pkg, d);
      GunicornSurvivesSettings(root, pkg, d, fs1);
    }
  }

  /**
   * The settings half of the build never touches `gunicorn.conf.py` when it
   * does not raise, unless it rolls back a configuration folder that is the
   * project root.
   */
  lemma GunicornSurvivesSettings(root: Path, pkg: Path, d: Descriptor, fs1: FS)
    requires IsFile(fs1, GunicornConf(root))
    ensures var r := BuildSettings(fs1, root, pkg, d);
            r.result == Built || (r.result == SettingsSourceMissing && !NamesRoot(d)) ==>
              IsFile(r.fs, GunicornConf(root)) && r.fs.files[GunicornConf(root)] == fs1.files[GunicornConf(root)]
  {
    var cfg := ConfigFolder(root, d);
    var sf := SettingsFolder(root, d);
    var g := GunicornConf(root);
    if !Exists(fs1, sf) && MakeDirs(fs1, sf).Done? {
      var fs2 := MakeDirs(fs1, sf).value;
      assert sf[..|cfg|] == cfg;
      assert g != cfg;
      match GenerateNewSettingsFile(fs2, cfg, pkg, DotName(d))
      case Split(fs3) =>
        LastDiffers(sf, "__init__.py", root, "gunicorn.conf.py");
        LastDiffers(sf, "base.py", root, "gunicorn.conf.py");
        assert IsFile(fs3, g) && fs3.files[g] == fs1.files[g];
        if FinishSettings(fs3, root, d).Completed? {
          LastDiffers(root, "gunicorn.conf.py", cfg, "settings.py");
          LastDiffers(root, "gunicorn.conf.py", root, ".gitignore");
          FinishKeepsOthers(fs3, root, d, g);
        }
      case RolledBack(fs3) =>
        if !NamesRoot(d) {
          assert !Under(g, cfg);
        }
      case Raised(_) =>
    }
  }

  /** The finishing steps change only the files they name. */
  lemma FinishKeepsOthers(fs3: FS, root: Path, d: Descriptor, q: Path)
    requires FinishSettings(fs3, root, d).Completed?
    requires q in fs3.files
    requires q != SettingsModule(root, d, "production.py") && q != SettingsModule(root, d, "local.py")
    requires q != Gitignore(root) && q != OldSettings(root, d)
    ensures var fs4 := FinishSettings(fs3, root, d).fs;
            q in fs4.files && fs4.files[q] == fs3.files[q]
  {
  }
}

=== FILE: deploy.dfy ===
/**
 * The default mode of the deploy command: check that the build left
 * everything in place, compare the local and the pushed git revisions, and
 * only then open an SSH connection and run the six remote steps.
 */
module Deploy {
  import opened Wrappers
  import opened Descriptors
  import opened Files
  import Build
  import opened Remote

  /** The command-line flags decide the mode; `--init` wins over `--build`. */
  datatype Mode = InitMode | BuildMode | DeployMode

  function SelectMode(init: bool, build: bool): (m: Mode)
    ensures m == InitMode <==> init
    ensures m == BuildMode <==> !init && build
    ensures m == DeployMode <==> !init && !build
  {
    if init then InitMode else if build then BuildMode else DeployMode
  }

  // ---------------------------------------------------------------------------
  // Requirements

  /** Which check of `check_requirements_for_deploy` failed first, if any. */
  datatype Readiness = Ready | NoDeployFile | NotConfigured | NoGunicornFile | NoSettingsFolder

  function CheckRequirements(fs: FS, root: Path, config: Option<Descriptor>): (r: Readiness)
    ensures r == NoDeployFile <==> !IsFile(fs, Build.DeployFile(root))
    ensures r == NotConfigured <==> IsFile(fs, Build.DeployFile(root)) && !Configured(config)
    ensures r == NoGunicornFile <==>
              IsFile(fs, Build.DeployFile(root)) && Configured(config) && !IsFile(fs, Build.GunicornConf(root))
    ensures r == NoSettingsFolder <==>
              && IsFile(fs, Build.DeployFile(root)) && Configured(config) && IsFile(fs, Build.GunicornConf(root))
              && !Exists(fs, Build.SettingsFolder(root, config.value))
    ensures r == Ready <==>
              && IsFile(fs, Build.DeployFile(root)) && Configured(config) && IsFile(fs, Build.GunicornConf(root))
              && Exists(fs, Build.SettingsFolder(root, config.value))
  {
    if !IsFile(fs, Build.DeployFile(root)) then NoDeployFile
    else if !Configured(config) then NotConfigured
    else if !IsFile(fs, Build.GunicornConf(root)) then NoGunicornFile
    else if !Exists(fs, Build.SettingsFolder(root, config.value)) then NoSettingsFolder
    else Ready
  }

  // ---------------------------------------------------------------------------
  // Git

  /** The local shell: the standard output of the last command of the history it is given. */
  type Shell = seq<string> -> string

  const LocalHeadCommand := "git rev-parse HEAD"

  function RemoteHeadCommand(d: Descriptor): string {
    "git rev-parse " + d.Get(RemoteName) + "/" + d.Get(Branch)
  }

  datatype GitCheck = GitCheck(same: bool, issued: seq<string>)

  /** `run_git_tasks`: both revisions are always asked for, the local one first. */
  function RunGitTasks(sh: Shell, d: Descriptor): (r: GitCheck)
    ensures r.issued == [LocalHeadCommand, RemoteHeadCommand(d)]
    ensures r.same <==> sh(r.issued[..1]) == sh(r.issued)
  {
    var local := sh([LocalHeadCommand]);
    var remote := sh([LocalHeadCommand, RemoteHeadCommand(d)]);
    assert [LocalHeadCommand, RemoteHeadCommand(d)][..1] == [LocalHeadCommand];
    GitCheck(local == remote, [LocalHeadCommand, RemoteHeadCommand(d)])
  }

  // ---------------------------------------------------------------------------
  // handle_deploy_project

  /** Where the SSH connection goes. */
  datatype Target = Target(host: string, user: string, port: string)

  function TargetOf(d: Descriptor): Target {
    Target(d.Get(ServerIp), d.Get(ServerUser), d.Get(ServerSshPort))
  }

  datatype DeployResult = Deployed | NotReady(reason: Readiness) | OutOfSync | ServerBuildFailed

  /**
   * Everything a deploy did: its result, the local git commands, the SSH
   * connection it opened (if any), the remote steps that ran, and how many
   * times it closed the connection.
   */
  datatype DeployOutcome = DeployOutcome(
    result: DeployResult,
    local: seq<string>,
    connection: Option<Target>,
    run: Run,
    closes: nat)

  function RemoteTrace(r: DeployOutcome): seq<string> {
    Issued(r.run.results)
  }

  /**
   * `handle_deploy_project`. `config` is what the descriptor parser returned
   * for `deploy.yml`; `sh` answers the local git commands and `o` the remote
   * ones, on a connection with no earlier commands.
   */
  function HandleDeploy(fs: FS, root: Path, config: Option<Descriptor>, sh: Shell, o: Oracle): (r: DeployOutcome)
    ensures r.result.NotReady? <==> CheckRequirements(fs, root, config) != Ready
    ensures r.result.NotReady? ==>
              && r.result.reason == CheckRequirements(fs, root, config)
              && r.local == [] && r.connection == None && r.run.ran == [] && r.closes == 0
    ensures !r.result.NotReady? ==>
              && config.Some?
              && r.local == [LocalHeadCommand, RemoteHeadCommand(config.value)]
    ensures r.result == OutOfSync <==>
              CheckRequirements(fs, root, config) == Ready && sh(r.local[..1]) != sh(r.local)
    ensures r.result == OutOfSync ==> r.connection == None && r.run.ran == [] && r.closes == 0
    ensures r.connection.Some? <==> r.result == Deployed || r.result == ServerBuildFailed
    ensures r.connection.Some? ==>
              && config.Some? && r.connection.value == TargetOf(config.value)
              && |r.run.ran| > 0 && PipelineRun(o, config.value, [], r.run)
    ensures r.result == Deployed ==> r.run.ran == Pipeline && AllOk(r.run.results) && r.closes == 0
    ensures r.result == ServerBuildFailed ==> !AllOk(r.run.results) && r.closes == 1
  {
    var readiness := CheckRequirements(fs, root, config);
    if readiness != Ready then
      DeployOutcome(NotReady(readiness), [], None, Run([], []), 0)
    else
      var d := config.value;
      var git := RunGitTasks(sh, d);
      if !git.same then
        DeployOutcome(OutOfSync, git.issued, None, Run([], []), 0)
      else
        var run := BuildServerStructure(o, d, []);
        if !AllOk(run.results) then
          DeployOutcome(ServerBuildFailed, git.issued, Some(TargetOf(d)), run, 1)
        else
          DeployOutcome(Deployed, git.issued, Some(TargetOf(d)), run, 0)
  }
}

=== FILE: deploy_lemmas.dfy ===
/**
 * Whole-deploy consequences: when the server is touched at all, what its
 * command trace looks like, and when the deploy counts as done.
 */
module DeployLemmas {
  import opened Wrappers
  import opened Descriptors
  import opened Files
  import opened Remote
  import opened PipelineLemmas
  import opened Deploy

  /**
   * A deploy succeeds exactly when the requirements hold, the local and the
   * remote revision agree, and every remote step succeeds.
   */
  lemma DeployedExactly(fs: FS, root: Path, config: Option<Descriptor>, sh: Shell, o: Oracle)
    ensures HandleDeploy(fs, root, config, sh, o).result == Deployed <==>
              && CheckRequirements(fs, root, config) == Ready
              && RunGitTasks(sh, config.value).same
              && AllOk(BuildServerStructure(o, config.value, []).results)
  {
  }

  /**
   * A successful deploy created both remote folders first and started gunicorn
   * last; a failed server build ends with the command that failed, unless the
   * folder step was the one that failed.
   */
  lemma {:induction false} DeployTrace(fs: FS, root: Path, config: Option<Descriptor>, sh: Shell, o: Oracle)
    ensures var r := HandleDeploy(fs, root, config, sh, o);
            var trace := RemoteTrace(r);
            r.result == Deployed ==>
              && |trace| >= 2
              && trace[..2] == [MkdirCommand(ProjectPath(config.value)), MkdirCommand(VenvPath(config.value))]
              && trace[|trace| - 1] == StartCommand(config.value)
    ensures var r := HandleDeploy(fs, root, config, sh, o);
            r.result == ServerBuildFailed && |r.run.ran| > 1 ==> o(RemoteTrace(r)).exited != 0
  {
    var r := HandleDeploy(fs, root, config, sh, o);
    if r.result == Deployed {
      SuccessTrace(o, config.value, [], r.run);
    } else if r.result == ServerBuildFailed {
      FailureEndsTrace(o, config.value, [], r.run);
      assert [] + RemoteTrace(r) == RemoteTrace(r);
    }
  }

  /**
   * The pipeline stops at the first failing step: a step that failed is the
   * last one that ran, so no later step issued any command.
   */
  lemma {:induction false} NothingRunsAfterFailure(fs: FS, root: Path, config: Option<Descriptor>, sh: Shell, o: Oracle, i: nat)
    requires var r := HandleDeploy(fs, root, config, sh, o);
             i < |r.run.ran| && !r.run.results[i].ok
    ensures var r := HandleDeploy(fs, root, config, sh, o);
            && r.result == ServerBuildFailed && r.closes == 1
            && r.run.ran == Pipeline[..i + 1]
  {
    var r := HandleDeploy(fs, root, config, sh, o);
    assert r.run.ran <= Pipeline;
  }
}

=== FILE: descriptor.dfy ===
/**
 * The deploy descriptor: the mapping parsed from `deploy.yml`. The parser is
 * an external library, so the model starts from its result. Values are kept as
 * the text `'{}'.format(value)` renders, which is the only way the command
 * uses them.
 */
module Descriptors {
  import opened Wrappers

  datatype Descriptor = Descriptor(fields: map<string, string>) {

    /** `deploy_settings.get(key)` as formatted text: a missing key formats as `None`. */
    function Get(key: string): string {
      if key in fields then fields[key] else "None"
    }
  }

  const ProjectName := "project_name"
  const ServerIp := "server_ip"
  const ServerUser := "server_user"
  const ServerSshPort := "server_ssh_port"
  const ServerProjectPath := "server_project_path"
  const ServerVenvPath := "server_venv_path"
  const PythonRuntimeVenv := "python_runtime_venv"
  const RepoUrl := "repo_url"
  const Branch := "branch"
  const RemoteName := "remote_name"
  const GunicornBind := "gunicorn_bind"
  const GunicornWorkers := "gunicorn_workers"
  const GunicornWorkerClass := "gunicorn_worker_class"
  const GunicornPidFile := "gunicorn_pid_file"
  const GunicornConfigFile := "gunicorn_config_file"

  /**
   * What `not deploy_settings` rejects: the parser produced nothing (a parse
   * error or an empty file) or an empty mapping. No field is checked on its own.
   */
  predicate Configured(config: Option<Descriptor>) {
    config.Some? && config.value.fields != map[]
  }
}

=== FILE: files.dfy ===
/**
 * The local filesystem as the build step sees it: regular files with their
 * text, and directories. A path is a sequence of components, so
 * `'{}/{}'.format(a, b)` is `a + [b]`. Each operation reports what Python
 * would: success, `FileNotFoundError`, or another `OSError` (a directory where
 * a file is expected, a file where a directory is expected, an existing
 * target for `os.makedirs`).
 */
module Files {

  type Path = seq<string>

  datatype FS = FS(files: map<Path, string>, dirs: set<Path>)

  datatype Io<T> = Done(value: T) | NotFound | Failed

  predicate IsFile(fs: FS, p: Path) {
    p in fs.files
  }

  predicate IsDir(fs: FS, p: Path) {
    p in fs.dirs
  }

  /** `os.path.exists`. */
  predicate Exists(fs: FS, p: Path) {
    p in fs.files || p in fs.dirs
  }

  /** `q` is `p` itself or lies somewhere inside it. */
  predicate Under(q: Path, p: Path) {
    p <= q
  }

  /** Opening `p` for reading. */
  function Read(fs: FS, p: Path): (r: Io<string>)
    ensures r.Done? <==> IsFile(fs, p)
    ensures r.Done? ==> r.value == fs.files[p]
    ensures r.NotFound? <==> !Exists(fs, p)
  {
    if p in fs.files then Done(fs.files[p])
    else if p in fs.dirs then Failed
    else NotFound
  }

  /** Opening `p` for writing and writing `text`: the file ends up holding exactly `text`. */
  function Write(fs: FS, p: Path, text: string): (r: Io<FS>)
    ensures r.Done? <==> !IsDir(fs, p)
    ensures r.Done? ==> r.value.files == fs.files[p := text] && r.value.dirs == fs.dirs
  {
    if p in fs.dirs then Failed else Done(fs.(files := fs.files[p := text]))
  }

  /** Opening `p` in append mode (creating it when absent) and writing `text`. */
  function Append(fs: FS, p: Path, text: string): (r: Io<FS>)
    ensures r.Done? <==> !IsDir(fs, p)
    ensures r.Done? ==> r.value.dirs == fs.dirs
    ensures r.Done? ==> r.value.files.Keys == fs.files.Keys + {p}
    ensures r.Done? ==> r.value.files[p] == (if IsFile(fs, p) then fs.files[p] else "") + text
    ensures r.Done? ==> forall q :: q in fs.files && q != p ==> r.value.files[q] == fs.files[q]
  {
    if p in fs.dirs then Failed
    else
      var before := if p in fs.files then fs.files[p] else "";
      Done(fs.(files := fs.files[p := before + text]))
  }

  /** `shutil.copyfile(src, dst)`. */
  function CopyFile(fs: FS, src: Path, dst: Path): (r: Io<FS>)
    ensures r.Done? <==> IsFile(fs, src) && !IsDir(fs, dst)
    ensures r.NotFound? <==> !Exists(fs, src)
    ensures r.Done? ==> r.value.files == fs.files[dst := fs.files[src]] && r.value.dirs == fs.dirs
  {
    match Read(fs, src)
    case Done(text) => Write(fs, dst, text)
    case NotFound => NotFound
    case Failed => Failed
  }

  /** The directories `os.makedirs(p)` may have to create: `p` and every ancestor of it. */
  function Ancestors(p: Path): set<Path> {
    set k | 1 <= k <= |p| :: p[..k]
  }

  /**
   * `os.makedirs(p)`: creates `p` with all missing ancestors; fails when `p`
   * already exists or an ancestor is a regular file.
   */
  function MakeDirs(fs: FS, p: Path): (r: Io<FS>)
    ensures r.Done? <==> |p| > 0 && !Exists(fs, p) && forall k :: 1 <= k < |p| ==> p[..k] !in fs.files
    ensures r.Done? ==> r.value.files == fs.files
    ensures r.Done? ==> p in r.value.dirs && fs.dirs <= r.value.dirs
    ensures r.Done? ==> forall k :: 1 <= k <= |p| ==> p[..k] in r.value.dirs
    ensures r.Done? ==> forall q :: q in r.value.dirs ==> q in fs.dirs || q <= p
  {
    if p == [] then NotFound
    else if Exists(fs, p) then Failed
    else if exists k :: 1 <= k < |p| && p[..k] in fs.files then Failed
    else
      assert p[..|p|] == p;
      assert p in Ancestors(p);
      Done(fs.(dirs := fs.dirs + Ancestors(p)))
  }

  /**
   * `shutil.rmtree(p)`: removes the directory `p` and everything inside it;
   * fails when `p` is missing or is not a directory.
   */
  function RemoveTree(fs: FS, p: Path): (r: Io<FS>)
    ensures r.Done? <==> IsDir(fs, p)
    ensures r.NotFound? <==> !Exists(fs, p)
    ensures r.Done? ==> forall q :: Under(q, p) ==> !Exists(r.value, q)
    ensures r.Done? ==> forall q :: !Under(q, p) && q in fs.files ==> q in r.value.files && r.value.files[q] == fs.files[q]
    ensures r.Done? ==> forall q :: !Under(q, p) && q in fs.dirs ==> q in r.value.dirs
    ensures r.Done? ==> r.value.files.Keys <= fs.files.Keys && r.value.dirs <= fs.dirs
  {
    if p in fs.dirs then
      Done(FS(map q | q in fs.files && !Under(q, p) :: fs.files[q],
              set q | q in fs.dirs && !Under(q, p)))
    else if p in fs.files then Failed
    else NotFound
  }

  /**
   * `shutil.rmtree` on a directory spelled `{p}/.`: everything inside `p` is
   * deleted, then the final `os.rmdir('{p}/.')` is refused (`EINVAL`) and the
   * error is raised, so `p` itself stays, empty. This function gives the
   * filesystem the exception leaves behind; when `p` is not a directory
   * nothing is deleted.
   */
  function ClearTree(fs: FS, p: Path): (r: FS)
    ensures !IsDir(fs, p) ==> r == fs
    ensures IsDir(fs, p) ==> IsDir(r, p) && forall q :: Under(q, p) && q != p ==> !Exists(r, q)
    ensures forall q :: !Under(q, p) && q in fs.files ==> q in r.files && r.files[q] == fs.files[q]
    ensures forall q :: !Under(q, p) && q in fs.dirs ==> q in r.dirs
    ensures r.files.Keys <= fs.files.Keys && r.dirs <= fs.dirs
  {
    if p in fs.dirs then
      FS(map q | q in fs.files && !Under(q, p) :: fs.files[q],
         set q | q in fs.dirs && (q == p || !Under(q, p)))
    else fs
  }

  /** Paths whose last components differ are different paths. */
  lemma LastDiffers(a: Path, x: string, b: Path, y: string)
    requires x != y
    ensures a + [x] != b + [y]
  {
    assert (a + [x])[|a + [x]| - 1] == x;
    assert (b + [y])[|b + [y]| - 1] == y;
  }

  /** `os.remove(p)` on a regular file. */
  function RemoveFile(fs: FS, p: Path): (r: FS)
    ensures r.files.Keys == fs.files.Keys - {p} && r.dirs == fs.dirs
    ensures forall q :: q in r.files ==> r.files[q] == fs.files[q]
  {
    fs.(files := fs.files - {p})
  }
}

=== FILE: pipeline_lemmas.dfy ===
/**
 * What the command trace of `build_server_structure` looks like: a failing
 * step ends the trace with the command that failed, and a successful run
 * starts by creating the two folders and ends by starting gunicorn.
 */
module PipelineLemmas {
  import opened Descriptors
  import opened Remote

  lemma {:induction false} IssuedSnoc(results: seq<StepResult>, last: StepResult)
    ensures Issued(results + [last]) == Issued(results) + last.issued
    decreases |results|
  {
    if results == [] {
      assert [] + [last] == [last];
    } else {
      assert (results + [last])[1..] == results[1..] + [last];
      IssuedSnoc(results[1..], last);
    }
  }

  /** The trace of a run is the trace before its last step followed by that step's commands. */
  lemma IssuedSplitLast(results: seq<StepResult>)
    requires |results| > 0
    ensures Issued(results) == Issued(results[..|results| - 1]) + results[|results| - 1].issued
  {
    var k := |results| - 1;
    assert results == results[..k] + [results[k]];
    IssuedSnoc(results[..k], results[k]);
  }

  /** Every step but the folder step stops right after the command that failed. */
  lemma StepFailureIsLast(s: Step, o: Oracle, d: Descriptor, h: seq<string>)
    requires s != Folders && !RunStep(s, o, d, h).ok
    ensures o(h + RunStep(s, o, d, h).issued).exited != 0
  {
    var issued := RunStep(s, o, d, h).issued;
    assert issued[..|issued|] == issued;
    assert ReplyAt(o, h, issued, |issued| - 1) == o(h + issued);
  }

  /**
   * A failed run ends with its first failing step, which ran after the
   * commands of all the others.
   */
  lemma FailedRunEndsWithFailedStep(run: Stepper, h: seq<string>, ran: seq<Step>, results: seq<StepResult>)
    requires Chained(run, h, ran, results)
    requires forall i :: 0 <= i < |ran| - 1 ==> results[i].ok
    requires !AllOk(results)
    ensures var k := |ran| - 1;
            && 0 <= k && !results[k].ok
            && results[k] == run(ran[k], h + Issued(results[..k]))
            && h + Issued(results) == (h + Issued(results[..k])) + results[k].issued
  {
    var j :| 0 <= j < |results| && !results[j].ok;
    var k := |ran| - 1;
    assert j == k;
    ChainedAt(run, h, ran, results, k);
    IssuedSplitLast(results);
  }

  /**
   * A run that failed stopped at its first failing step: when that step is not
   * the folder step, the last command of the whole trace is the one that
   * failed; when it is, the trace is exactly the two `mkdir -p` commands.
   */
  lemma FailureEndsTrace(o: Oracle, d: Descriptor, h: seq<string>, r: Run)
    requires PipelineRun(o, d, h, r) && !AllOk(r.results)
    ensures && 0 < |r.ran| <= |Pipeline|
            && !r.results[|r.ran| - 1].ok
            && (|r.ran| > 1 ==> o(h + Issued(r.results)).exited != 0)
            && (|r.ran| == 1 ==> Issued(r.results) == [MkdirCommand(ProjectPath(d)), MkdirCommand(VenvPath(d))])
  {
    FailedRunEndsWithFailedStep(RemoteSteps(o, d), h, r.ran, r.results);
    var k := |r.ran| - 1;
    var before := h + Issued(r.results[..k]);
    var step := Pipeline[k];
    assert r.results[k] == RunStep(step, o, d, before);
    if k == 0 {
      assert r.results[..0] == [];
      assert before == h;
      assert Issued(r.results) == r.results[0].issued;
    } else {
      assert step != Folders;
      StepFailureIsLast(step, o, d, before);
    }
  }

  /** A run that succeeded created both folders first and started gunicorn last. */
  lemma SuccessTrace(o: Oracle, d: Descriptor, h: seq<string>, r: Run)
    requires PipelineRun(o, d, h, r) && AllOk(r.results)
    ensures var trace := Issued(r.results);
            && |trace| >= 2
            && trace[..2] == [MkdirCommand(ProjectPath(d)), MkdirCommand(VenvPath(d))]
            && trace[|trace| - 1] == StartCommand(d)
  {
    SuccessTraceStart(o, d, h, r);
    SuccessTraceEnd(o, d, h, r);
  }

  lemma SuccessTraceStart(o: Oracle, d: Descriptor, h: seq<string>, r: Run)
    requires PipelineRun(o, d, h, r) && AllOk(r.results)
    ensures |Issued(r.results)| >= 2
    ensures Issued(r.results)[..2] == [MkdirCommand(ProjectPath(d)), MkdirCommand(VenvPath(d))]
  {
    assert r.ran == Pipeline;
    var folders := r.results[0];
    assert folders == RunStep(Folders, o, d, h);
    assert Issued(r.results) == folders.issued + Issued(r.results[1..]);
  }

  lemma SuccessTraceEnd(o: Oracle, d: Descriptor, h: seq<string>, r: Run)
    requires PipelineRun(o, d, h, r) && AllOk(r.results)
    ensures |Issued(r.results)| > 0
    ensures Issued(r.results)[|Issued(r.results)| - 1] == StartCommand(d)
  {
    assert r.ran == Pipeline;
    var last := r.results[5];
    var before := h + Issued(r.results[..5]);
    ChainedAt(RemoteSteps(o, d), h, r.ran, r.results, 5);
    assert last == RunStep(Gunicorn, o, d, before);
    assert last.ok;
    assert last.issued[|last.issued| - 1] == StartCommand(d);
    IssuedSplitLast(r.results);
  }
}

=== FILE: remote.dfy ===
/**
 * The remote provisioning steps of `build_server_structure`, run over an
 * SSH connection. The connection is an oracle: given every command issued so
 * far (the last one being the command just run) it answers with the exit code
 * and, for the listing and pid commands, the integer `int(stdout)` yields.
 * Each step reports the commands it issued, in order, and whether it succeeded.
 */
module Remote {
  import opened Wrappers
  import opened Text
  import opened Descriptors

  /** The result of `server_connection.run(command)` as the steps read it. */
  datatype Reply = Reply(exited: int, parsed: int)

  /** The remote host: the reply to the last command of the history it is given. */
  type Oracle = seq<string> -> Reply

  // ---------------------------------------------------------------------------
  // Commands

  function ProjectPath(d: Descriptor): string { d.Get(ServerProjectPath) }

  function VenvPath(d: Descriptor): string { d.Get(ServerVenvPath) }

  function MkdirCommand(path: string): (r: string)
    ensures "mkdir -p " <= r && r[9..] == path
  {
    "mkdir -p " + path
  }

  /** Counts the entries of a directory. */
  function CountCommand(path: string): (r: string)
    ensures "ls -1 " + path <= r && |r| >= 8 && r[|r| - 8..] == " | wc -l"
  {
    "ls -1 " + path + " | wc -l"
  }

  function CloneCommand(d: Descriptor): (r: string)
    ensures "git clone " + d.Get(RepoUrl) <= r && |r| >= |ProjectPath(d)| && r[|r| - |ProjectPath(d)|..] == ProjectPath(d)
  {
    "git clone " + d.Get(RepoUrl) + " " + ProjectPath(d)
  }

  function PullCommand(d: Descriptor): (r: string)
    ensures "cd " + ProjectPath(d) + " && git pull " <= r
    ensures var target := d.Get(RemoteName) + " " + d.Get(Branch);
            |r| >= |target| && r[|r| - |target|..] == target
  {
    "cd " + ProjectPath(d) + " && git pull " + d.Get(RemoteName) + " " + d.Get(Branch)
  }

  function VirtualenvCommand(d: Descriptor): (r: string)
    ensures d.Get(PythonRuntimeVenv) + " -m virtualenv -p " <= r
    ensures |r| >= |VenvPath(d)| && r[|r| - |VenvPath(d)|..] == VenvPath(d)
  {
    var python := d.Get(PythonRuntimeVenv);
    python + " -m virtualenv -p " + python + " " + VenvPath(d)
  }

  function PipCommand(d: Descriptor): (r: string)
    ensures VenvPath(d) + "/bin/pip install -r " + ProjectPath(d) <= r
    ensures |r| >= 17 && r[|r| - 17..] == "/requirements.txt"
  {
    VenvPath(d) + "/bin/pip install -r " + ProjectPath(d) + "/requirements.txt"
  }

  function MigrateCommand(d: Descriptor): (r: string)
    ensures VenvPath(d) + "/bin/python " + ProjectPath(d) + "/manage.py migrate " <= r
  {
    VenvPath(d) + "/bin/python " + ProjectPath(d) + "/manage.py migrate --settings=" + d.Get(ProjectName) + ".settings"
  }

  function CollectStaticCommand(d: Descriptor): (r: string)
    ensures VenvPath(d) + "/bin/python " + ProjectPath(d) + "/manage.py collectstatic " <= r
    ensures |r| >= 11 && r[|r| - 11..] == " --no-input"
  {
    VenvPath(d) + "/bin/python " + ProjectPath(d) + "/manage.py collectstatic --settings="
    + d.Get(ProjectName) + ".settings" + " --no-input"
  }

  /** Prints the stored gunicorn pid, or 0 when there is no pid file. */
  function PidCommand(d: Descriptor): (r: string)
    ensures "[ -f " + d.Get(GunicornPidFile) <= r && |r| >= 10 && r[|r| - 10..] == " || echo 0"
  {
    var pidFile := d.Get(GunicornPidFile);
    "[ -f " + pidFile + " ] && cat " + pidFile + " || echo 0"
  }

  /** The pid can be read back from the command that kills it. */
  function KillCommand(pid: int): (r: string)
    ensures "kill -9 " <= r && ParseInt(r[8..]) == Some(pid)
  {
    IntToStringRoundTrip(pid);
    "kill -9 " + IntToString(pid)
  }

  function StartCommand(d: Descriptor): (r: string)
    ensures "cd " + ProjectPath(d) + " && DJANGO_SETTINGS_MODULE=" <= r
    ensures var cd, settings := "cd " + ProjectPath(d) + " && DJANGO_SETTINGS_MODULE=", d.Get(ProjectName) + ".settings ";
            |r| >= |cd| + |settings| && r[|cd|..|cd| + |settings|] == settings
    ensures var app := " " + d.Get(ProjectName) + ".wsgi:application";
            |r| >= |app| && r[|r| - |app|..] == app
  {
    var name := d.Get(ProjectName);
    var cd := "cd " + ProjectPath(d) + " && DJANGO_SETTINGS_MODULE=";
    var gunicorn := VenvPath(d) + "/bin/gunicorn -c " + ProjectPath(d) + "/" + d.Get(GunicornConfigFile);
    JoinPieces(cd, name + ".settings ", gunicorn, " " + name + ".wsgi:application")
  }

  /** Joins four pieces, each recoverable by position. */
  function JoinPieces(a: string, b: string, c: string, e: string): (r: string)
    ensures a <= r && |r| == |a| + |b| + |c| + |e|
    ensures r[|a|..|a| + |b|] == b && r[|r| - |e|..] == e
  {
    var r := a + b + c + e;
    assert r[|a|..|a| + |b|] == b;
    assert r[|r| - |e|..] == e;
    r
  }

  /** The trace tells which branch the project step took: a clone never reads as a pull. */
  lemma CloneIsNotPull(d: Descriptor)
    ensures CloneCommand(d) != PullCommand(d)
  {
    var c, p := CloneCommand(d), PullCommand(d);
    assert c[0] == 'g' && p[0] == 'c';
  }

  /** Killing different pids issues different commands. */
  lemma KillCommandInjective(a: int, b: int)
    requires KillCommand(a) == KillCommand(b)
    ensures a == b
  {
  }

  /** Stopping the old server and starting the new one are different commands. */
  lemma KillIsNotStart(pid: int, d: Descriptor)
    ensures KillCommand(pid) != StartCommand(d)
  {
    var k, s := KillCommand(pid), StartCommand(d);
    assert k[0] == 'k' && s[0] == 'c';
  }

  // ---------------------------------------------------------------------------
  // Steps

  /** The commands a step issued, in order, and its boolean outcome. */
  datatype StepResult = StepResult(ok: bool, issued: seq<string>)

  /** The reply to the `i`-th of the commands `cmds` issued after history `h`. */
  function ReplyAt(o: Oracle, h: seq<string>, cmds: seq<string>, i: nat): Reply
    requires i < |cmds|
  {
    o(h + cmds[..i + 1])
  }

  /** Every command of `cmds` from index `from` on exited with status 0. */
  predicate ExitedZeroFrom(o: Oracle, h: seq<string>, cmds: seq<string>, from: nat) {
    forall i :: from <= i < |cmds| ==> ReplyAt(o, h, cmds, i).exited == 0
  }

  /** `build_server_folders`: both `mkdir -p` commands run before either exit code is looked at. */
  function BuildServerFolders(o: Oracle, d: Descriptor, h: seq<string>): (r: StepResult)
    ensures r.issued == [MkdirCommand(ProjectPath(d)), MkdirCommand(VenvPath(d))]
    ensures r.ok <==> ExitedZeroFrom(o, h, r.issued, 0)
  {
    var project := MkdirCommand(ProjectPath(d));
    var venv := MkdirCommand(VenvPath(d));
    var projectReply := o(h + [project]);
    var venvReply := o(h + [project, venv]);
    assert [project, venv][..1] == [project];
    assert [project, venv][..2] == [project, venv];
    assert ReplyAt(o, h, [project, venv], 0) == projectReply;
    assert ReplyAt(o, h, [project, venv], 1) == venvReply;
    StepResult(projectReply.exited == 0 && venvReply.exited == 0, [project, venv])
  }

  /**
   * `build_project_on_server`: clones into an empty project directory and
   * pulls into a non-empty one. The listing's own exit code is not looked at.
   */
  function BuildProjectOnServer(o: Oracle, d: Descriptor, h: seq<string>): (r: StepResult)
    ensures |r.issued| == 2 && r.issued[0] == CountCommand(ProjectPath(d))
    ensures ReplyAt(o, h, r.issued, 0).parsed == 0 ==> r.issued[1] == CloneCommand(d)
    ensures ReplyAt(o, h, r.issued, 0).parsed != 0 ==> r.issued[1] == PullCommand(d)
    ensures r.ok <==> ExitedZeroFrom(o, h, r.issued, 1)
  {
    var count := CountCommand(ProjectPath(d));
    var files := o(h + [count]).parsed;
    var git := if files != 0 then PullCommand(d) else CloneCommand(d);
    var gitReply := o(h + [count, git]);
    assert [count, git][..1] == [count];
    assert [count, git][..2] == [count, git];
    assert ReplyAt(o, h, [count, git], 1) == gitReply;
    StepResult(gitReply.exited == 0, [count, git])
  }

  /**
   * `build_venv_on_server`: creates the virtualenv only in an empty venv
   * directory, stops when that creation fails, and otherwise always installs
   * the requirements.
   */
  function BuildVenvOnServer(o: Oracle, d: Descriptor, h: seq<string>): (r: StepResult)
    ensures 2 <= |r.issued| <= 3 && r.issued[0] == CountCommand(VenvPath(d))
    ensures ReplyAt(o, h, r.issued, 0).parsed != 0 ==> r.issued == [CountCommand(VenvPath(d)), PipCommand(d)]
    ensures ReplyAt(o, h, r.issued, 0).parsed == 0 ==>
              && r.issued[1] == VirtualenvCommand(d)
              && (|r.issued| == 3 <==> ReplyAt(o, h, r.issued, 1).exited == 0)
              && (|r.issued| == 3 ==> r.issued[2] == PipCommand(d))
    ensures r.ok <==> ExitedZeroFrom(o, h, r.issued, 1)
    ensures !r.ok ==> ReplyAt(o, h, r.issued, |r.issued| - 1).exited != 0
  {
    var count := CountCommand(VenvPath(d));
    var files := o(h + [count]).parsed;
    var pip := PipCommand(d);
    if files == 0 then
      GuardedThird(o, h, count, VirtualenvCommand(d), pip)
    else
      assert [count, pip][..1] == [count];
      assert [count, pip][..2] == [count, pip];
      assert ReplyAt(o, h, [count, pip], 1) == o(h + [count, pip]);
      StepResult(o(h + [count, pip]).exited == 0, [count, pip])
  }

  /**
   * An unchecked query `first`, then `second`, and `third` only when `second`
   * exited with 0: the shape of the virtualenv creation and of the kill before
   * the gunicorn start.
   */
  function GuardedThird(o: Oracle, h: seq<string>, first: string, second: string, third: string): (r: StepResult)
    ensures 2 <= |r.issued| <= 3 && r.issued[..2] == [first, second]
    ensures ReplyAt(o, h, r.issued, 0) == o(h + [first])
    ensures |r.issued| == 3 <==> ReplyAt(o, h, r.issued, 1).exited == 0
    ensures |r.issued| == 3 ==> r.issued[2] == third
    ensures r.ok <==> ExitedZeroFrom(o, h, r.issued, 1)
    ensures !r.ok ==> ReplyAt(o, h, r.issued, |r.issued| - 1).exited != 0
  {
    assert [first, second][..1] == [first];
    assert [first, second][..2] == [first, second];
    if o(h + [first, second]).exited != 0 then
      StepResult(false, [first, second])
    else
      var all := [first, second, third];
      assert all[..1] == [first];
      assert all[..2] == [first, second];
      assert all[..3] == all;
      assert ReplyAt(o, h, all, 1) == o(h + [first, second]);
      assert ReplyAt(o, h, all, 2) == o(h + all);
      StepResult(o(h + all).exited == 0, all)
  }

  /** A step made of one command, successful iff that command exits with 0. */
  function SingleCommand(o: Oracle, h: seq<string>, command: string): (r: StepResult)
    ensures r.issued == [command]
    ensures r.ok <==> ExitedZeroFrom(o, h, r.issued, 0)
  {
    assert [command][..1] == [command];
    assert ReplyAt(o, h, [command], 0) == o(h + [command]);
    StepResult(o(h + [command]).exited == 0, [command])
  }

  /** `run_migrations`. */
  function RunMigrations(o: Oracle, d: Descriptor, h: seq<string>): (r: StepResult)
    ensures r.issued == [MigrateCommand(d)]
    ensures r.ok <==> ExitedZeroFrom(o, h, r.issued, 0)
  {
    SingleCommand(o, h, MigrateCommand(d))
  }

  /** `generate_assets_collect`. */
  function GenerateAssetsCollect(o: Oracle, d: Descriptor, h: seq<string>): (r: StepResult)
    ensures r.issued == [CollectStaticCommand(d)]
    ensures r.ok <==> ExitedZeroFrom(o, h, r.issued, 0)
  {
    SingleCommand(o, h, CollectStaticCommand(d))
  }

  /**
   * `run_gunicorn_service`: a stored pid of 0 kills nothing; any other pid is
   * killed first, and a failed kill ends the step before the start command.
   */
  function RunGunicornService(o: Oracle, d: Descriptor, h: seq<string>): (r: StepResult)
    ensures 2 <= |r.issued| <= 3 && r.issued[0] == PidCommand(d)
    ensures ReplyAt(o, h, r.issued, 0).parsed == 0 ==> r.issued == [PidCommand(d), StartCommand(d)]
    ensures ReplyAt(o, h, r.issued, 0).parsed != 0 ==>
              && r.issued[1] == KillCommand(ReplyAt(o, h, r.issued, 0).parsed)
              && (|r.issued| == 3 <==> ReplyAt(o, h, r.issued, 1).exited == 0)
              && (|r.issued| == 3 ==> r.issued[2] == StartCommand(d))
    ensures r.ok <==> ExitedZeroFrom(o, h, r.issued, 1)
    ensures !r.ok ==> ReplyAt(o, h, r.issued, |r.issued| - 1).exited != 0
  {
    var read := PidCommand(d);
    var pid := o(h + [read]).parsed;
    var start := StartCommand(d);
    if pid != 0 then
      GuardedThird(o, h, read, KillCommand(pid), start)
    else
      assert [read, start][..1] == [read];
      assert [read, start][..2] == [read, start];
      assert ReplyAt(o, h, [read, start], 1) == o(h + [read, start]);
      StepResult(o(h + [read, start]).exited == 0, [read, start])
  }

  // ---------------------------------------------------------------------------
  // The pipeline

  datatype Step = Folders | Project | Venv | Migrations | Assets | Gunicorn

  /** The fixed order of `build_server_structure`. */
  const Pipeline: seq<Step> := [Folders, Project, Venv, Migrations, Assets, Gunicorn]

  /**
   * The first command whose exit code decides a step: the directory listings
   * and the pid query are never checked.
   */
  function CheckedFrom(s: Step): nat {
    if s == Project || s == Venv || s == Gunicorn then 1 else 0
  }

  /** One step of the pipeline, dispatched by name. */
  function RunStep(s: Step, o: Oracle, d: Descriptor, h: seq<string>): (r: StepResult)
    ensures |r.issued| > 0
    ensures r.ok <==> ExitedZeroFrom(o, h, r.issued, CheckedFrom(s))
  {
    match s
    case Folders => BuildServerFolders(o, d, h)
    case Project => BuildProjectOnServer(o, d, h)
    case Venv => BuildVenvOnServer(o, d, h)
    case Migrations => RunMigrations(o, d, h)
    case Assets => GenerateAssetsCollect(o, d, h)
    case Gunicorn => RunGunicornService(o, d, h)
  }

  /** The commands of a series of steps, in the order they were issued. */
  function Issued(results: seq<StepResult>): seq<string> {
    if results == [] then [] else results[0].issued + Issued(results[1..])
  }

  lemma IssuedAfterFirst(first: StepResult, rest: seq<StepResult>, i: nat)
    requires 1 <= i <= |rest| + 1
    ensures Issued(([first] + rest)[..i]) == first.issued + Issued(rest[..i - 1])
  {
    var prefix := ([first] + rest)[..i];
    assert prefix[0] == first;
    assert prefix[1..] == rest[..i - 1];
  }

  /** The steps that ran and what each of them did. */
  datatype Run = Run(ran: seq<Step>, results: seq<StepResult>)

  predicate AllOk(results: seq<StepResult>) {
    forall i :: 0 <= i < |results| ==> results[i].ok
  }

  /** What running one step after a history does. */
  type Stepper = (Step, seq<string>) -> StepResult

  /**
   * Each of `results` is what the matching step of `ran` did, the first after
   * `h` and each later one after the commands of the one before.
   */
  predicate Chained(run: Stepper, h: seq<string>, ran: seq<Step>, results: seq<StepResult>)
    decreases |ran|
  {
    && |results| == |ran|
    && (ran != [] ==>
          && results[0] == run(ran[0], h)
          && Chained(run, h + results[0].issued, ran[1..], results[1..]))
  }

  /** The `k`-th step that ran saw exactly the commands of the steps before it. */
  lemma {:induction false} ChainedAt(run: Stepper, h: seq<string>, ran: seq<Step>, results: seq<StepResult>, k: nat)
    requires Chained(run, h, ran, results) && k < |ran|
    ensures results[k] == run(ran[k], h + Issued(results[..k]))
    decreases k
  {
    if k == 0 {
      assert results[..0] == [];
      assert h + Issued(results[..0]) == h;
    } else {
      ChainedAt(run, h + results[0].issued, ran[1..], results[1..], k - 1);
      assert [results[0]] + results[1..] == results;
      IssuedAfterFirst(results[0], results[1..], k);
      assert Issued(results[..k]) == results[0].issued + Issued(results[1..][..k - 1]);
      assert h + Issued(results[..k]) == (h + results[0].issued) + Issued(results[1..][..k - 1]);
      assert results[1..][k - 1] == results[k] && ran[1..][k - 1] == ran[k];
    }
  }

  /**
   * Runs `steps` in order after history `h`, stopping at the first step that
   * fails. Every step that ran saw exactly the commands of the steps before it.
   */
  function RunSteps(steps: seq<Step>, run: Stepper, h: seq<string>): (r: Run)
    ensures |r.results| == |r.ran| && r.ran <= steps
    ensures Chained(run, h, r.ran, r.results)
    ensures forall i :: 0 <= i < |r.ran| - 1 ==> r.results[i].ok
    ensures r.ran == steps || (|r.ran| > 0 && !r.results[|r.ran| - 1].ok)
    decreases |steps|
  {
    if steps == [] then Run([], [])
    else
      var first := run(steps[0], h);
      if !first.ok then
        Run([steps[0]], [first])
      else
        var rest := RunSteps(steps[1..], run, h + first.issued);
        var ran, results := [steps[0]] + rest.ran, [first] + rest.results;
        assert ran[1..] == rest.ran && results[1..] == rest.results;
        assert Chained(run, h, ran, results);
        assert ran <= steps by {
          assert steps == [steps[0]] + steps[1..];
        }
        assert forall i :: 0 <= i < |ran| - 1 ==> results[i].ok by {
          forall i | 0 <= i < |ran| - 1 ensures results[i].ok {
            if i > 0 {
              assert results[i] == rest.results[i - 1];
            }
          }
        }
        assert rest.ran != steps[1..] ==> !results[|ran| - 1].ok by {
          assert |ran| - 1 == |rest.ran|;
          if rest.ran != steps[1..] {
            assert results[|ran| - 1] == rest.results[|rest.ran| - 1];
          }
        }
        Run(ran, results)
  }

  /** The six steps over the connection `o` with descriptor `d`. */
  function RemoteSteps(o: Oracle, d: Descriptor): Stepper {
    (s, h) => RunStep(s, o, d, h)
  }

  /**
   * What a run of `build_server_structure` after history `h` looks like: the
   * steps that ran are a prefix of the fixed order, each saw the commands of
   * the ones before, none runs after a failure, and success (every step that
   * ran succeeded) means all six ran.
   */
  predicate PipelineRun(o: Oracle, d: Descriptor, h: seq<string>, r: Run) {
    && |r.results| == |r.ran| && r.ran <= Pipeline
    && Chained(RemoteSteps(o, d), h, r.ran, r.results)
    && (forall i :: 0 <= i < |r.ran| - 1 ==> r.results[i].ok)
    && (AllOk(r.results) ==> r.ran == Pipeline)
    && (r.ran != Pipeline ==> |r.ran| > 0 && !r.results[|r.ran| - 1].ok)
  }

  /** `build_server_structure`. */
  function BuildServerStructure(o: Oracle, d: Descriptor, h: seq<string>): (r: Run)
    ensures PipelineRun(o, d, h, r)
  {
    RunSteps(Pipeline, RemoteSteps(o, d), h)
  }
}

=== FILE: templates.dfy ===
/**
 * The two template rewriters of the build step, line by line:
 * `generate_gunicorn_config_file` (with `generate_line_for_replace_gunicorn_file`)
 * fills four gunicorn settings from the descriptor, and
 * `generate_new_settings_file` moves the `BASE_DIR` assignment one package
 * deeper. Both classify a line with `re.match(r'(.*) = (.*)', line)`, whose
 * meaning is `Text.AssignsTo`.
 */
module Templates {
  import opened Wrappers
  import opened Text
  import opened Descriptors

  /** The gunicorn settings the rewriter fills in. */
  const GunicornNames: set<string> := {"bind", "workers", "worker_class", "pidfile"}

  /** The line assigns one of the four gunicorn settings. */
  ghost predicate Recognised(line: string) {
    AssignsTo(line, "bind") || AssignsTo(line, "workers")
    || AssignsTo(line, "worker_class") || AssignsTo(line, "pidfile")
  }

  function Quote(v: string): string {
    "'" + v + "'"
  }

  /**
   * The descriptor value written for a gunicorn setting: quoted for `bind`,
   * `worker_class` and `pidfile`, bare for `workers`.
   */
  function GunicornSetting(name: string, d: Descriptor): (r: Option<string>)
    ensures r.Some? <==> name in GunicornNames
    ensures name == "workers" ==> r == Some(d.Get(GunicornWorkers))
    ensures r.Some? && name != "workers" ==>
              |r.value| >= 2 && r.value[0] == '\'' && r.value[|r.value| - 1] == '\''
  {
    if name == "bind" then Some(Quote(d.Get(GunicornBind)))
    else if name == "workers" then Some(d.Get(GunicornWorkers))
    else if name == "worker_class" then Some(Quote(d.Get(GunicornWorkerClass)))
    else if name == "pidfile" then Some(Quote(d.Get(GunicornPidFile)))
    else None
  }

  /** The replacement for a matched line whose first group is `name`. */
  function ReplaceGunicornLine(name: string, line: string, d: Descriptor): (r: string)
    ensures name == "bind" ==> r == "bind = '" + d.Get(GunicornBind) + "'\n"
    ensures name == "workers" ==> r == "workers = " + d.Get(GunicornWorkers) + "\n"
    ensures name == "worker_class" ==> r == "worker_class = '" + d.Get(GunicornWorkerClass) + "'\n"
    ensures name == "pidfile" ==> r == "pidfile = '" + d.Get(GunicornPidFile) + "'\n"
    ensures name !in GunicornNames ==> r == line
  {
    match GunicornSetting(name, d)
    case None => line
    case Some(value) => name + " = " + value + "\n"
  }

  /** One iteration of the template loop: a matched line goes through the replacement. */
  function RewriteGunicornLine(line: string, d: Descriptor): (r: string)
    ensures !Recognised(line) ==> r == line
    ensures AssignsTo(line, "bind") ==> r == "bind = '" + d.Get(GunicornBind) + "'\n"
    ensures AssignsTo(line, "workers") ==> r == "workers = " + d.Get(GunicornWorkers) + "\n"
    ensures AssignsTo(line, "worker_class") ==> r == "worker_class = '" + d.Get(GunicornWorkerClass) + "'\n"
    ensures AssignsTo(line, "pidfile") ==> r == "pidfile = '" + d.Get(GunicornPidFile) + "'\n"
  {
    match AssignName(line)
    case None => line
    case Some(name) => ReplaceGunicornLine(name, line, d)
  }

  /** The gunicorn template rewritten line for line. */
  function RewriteGunicornLines(template: seq<string>, d: Descriptor): (r: seq<string>)
    ensures |r| == |template|
    ensures forall i :: 0 <= i < |template| && !Recognised(template[i]) ==> r[i] == template[i]
    ensures forall i, name :: 0 <= i < |template| && AssignsTo(template[i], name) && name in GunicornNames
              ==> r[i] == name + " = " + GunicornSetting(name, d).value + "\n"
  {
    seq(|template|, i requires 0 <= i < |template| => RewriteGunicornLine(template[i], d))
  }

  /**
   * The contents written to `gunicorn.conf.py` for a template file: the
   * template read in text mode and rewritten line for line. Lines that are
   * not recognised pass through as read.
   */
  function GunicornFile(template: string, d: Descriptor): (r: string)
    ensures (forall i :: 0 <= i < |ReadLines(template)| ==> !Recognised(ReadLines(template)[i]))
            ==> r == Translate(template)
  {
    var lines := ReadLines(template);
    var out := RewriteGunicornLines(lines, d);
    assert (forall i :: 0 <= i < |lines| ==> !Recognised(lines[i])) ==> out == lines;
    Join(out)
  }

  // ---------------------------------------------------------------------------
  // Properties of the gunicorn rewrite

  predicate NoNewline(s: string) {
    Avoids(s, '\n')
  }

  predicate NoSpace(s: string) {
    Avoids(s, ' ')
  }

  /** A setting name is one word: no space, no line end, not empty. */
  predicate PlainName(n: string) {
    NoNewline(n) && NoSpace(n) && Avoids(n, '\r') && |n| > 0
  }

  lemma GunicornNamesPlain()
    ensures forall n :: n in GunicornNames ==> NoNewline(n) && NoSpace(n) && Avoids(n, '\r') && |n| > 0
  {
    forall n | n in GunicornNames
      ensures PlainName(n)
    {
      assert n == "bind" || n == "workers" || n == "worker_class" || n == "pidfile";
    }
  }

  /**
   * Reading a replaced line back finds its own name again, or a longer name
   * that is not a gunicorn setting (when the value itself holds `" = "`).
   */
  lemma ReplacedLineName(name: string, value: string)
    requires name in GunicornNames
    ensures var o := name + " = " + value + "\n";
            AssignName(o).Some? && (AssignName(o).value == name || AssignName(o).value !in GunicornNames)
  {
    GunicornNamesPlain();
    var o := name + " = " + value + "\n";
    var h := Head(o);
    assert forall j :: 0 <= j < |name| ==> o[j] == name[j];
    assert o[|name|] == ' ' && o[|name| + 1] == '=' && o[|name| + 2] == ' ';
    assert |h| >= |name| + 3;
    assert h[..|name|] == name;
    assert SepAt(h, |name|);
    assert Matches(o);
    var m := AssignName(o).value;
    assert AssignsTo(o, m);
    assert |m| >= |name|;
    if |m| > |name| {
      assert m[|name|] == h[|name|] == ' ';
      assert !NoSpace(m);
    } else {
      assert m == h[..|name|];
    }
  }

  /** Rewriting a line a second time with the same descriptor changes nothing. */
  lemma GunicornLineIdempotent(line: string, d: Descriptor)
    ensures RewriteGunicornLine(RewriteGunicornLine(line, d), d) == RewriteGunicornLine(line, d)
  {
    match AssignName(line)
    case None =>
    case Some(name) =>
      if name in GunicornNames {
        var value := GunicornSetting(name, d).value;
        ReplacedLineName(name, value);
      }
  }

  /** Running the generator over its own output reproduces that output. */
  lemma GunicornRewriteIdempotent(template: seq<string>, d: Descriptor)
    ensures RewriteGunicornLines(RewriteGunicornLines(template, d), d) == RewriteGunicornLines(template, d)
  {
    var once := RewriteGunicornLines(template, d);
    forall i | 0 <= i < |template|
      ensures RewriteGunicornLines(once, d)[i] == once[i]
    {
      GunicornLineIdempotent(template[i], d);
    }
  }

  /** Text that stays on one line when read back: no `\n` and no `\r`. */
  predicate OneLine(s: string) {
    Avoids(s, '\n') && Avoids(s, '\r')
  }

  lemma ConcatOneLine(a: string, b: string)
    requires OneLine(a) && OneLine(b)
    ensures OneLine(a + b)
  {
    ConcatAvoids(a, b, '\n');
    ConcatAvoids(a, b, '\r');
  }

  /** The descriptor values written into the gunicorn file each stay on one line. */
  predicate SingleLineValues(d: Descriptor) {
    && OneLine(d.Get(GunicornBind))
    && OneLine(d.Get(GunicornWorkers))
    && OneLine(d.Get(GunicornWorkerClass))
    && OneLine(d.Get(GunicornPidFile))
  }

  /** One line of text plus a newline is a terminated well-formed line without `\r`. */
  lemma TerminatedLine(body: string)
    requires OneLine(body)
    ensures IsLine(body + "\n") && Terminated(body + "\n") && Avoids(body + "\n", '\r')
  {
    var l := body + "\n";
    assert forall j :: 0 <= j < |l| - 1 ==> l[j] == body[j];
    ConcatAvoids(body, "\n", '\r');
  }

  /** The text a replaced gunicorn line holds before its newline. */
  lemma SettingOneLine(name: string, d: Descriptor)
    requires SingleLineValues(d) && name in GunicornNames
    ensures OneLine(name + " = " + GunicornSetting(name, d).value)
  {
    GunicornNamesPlain();
    var raw := if name == "bind" then d.Get(GunicornBind)
               else if name == "workers" then d.Get(GunicornWorkers)
               else if name == "worker_class" then d.Get(GunicornWorkerClass)
               else d.Get(GunicornPidFile);
    var value := GunicornSetting(name, d).value;
    assert OneLine("'") && OneLine(" = ");
    if name != "workers" {
      ConcatOneLine("'", raw);
      ConcatOneLine("'" + raw, "'");
    }
    assert OneLine(value);
    ConcatOneLine(name, " = ");
    ConcatOneLine(name + " = ", value);
  }

  /**
   * A rewritten template line is still one well-formed line without `\r`,
   * terminated if the template line was.
   */
  lemma RewrittenLineWellFormed(line: string, d: Descriptor)
    requires SingleLineValues(d) && IsLine(line) && Avoids(line, '\r')
    ensures IsLine(RewriteGunicornLine(line, d)) && Avoids(RewriteGunicornLine(line, d), '\r')
    ensures Terminated(line) ==> Terminated(RewriteGunicornLine(line, d))
  {
    match AssignName(line)
    case None =>
    case Some(name) =>
      if name in GunicornNames {
        SettingOneLine(name, d);
        TerminatedLine(name + " = " + GunicornSetting(name, d).value);
      }
  }

  /**
   * When the descriptor values are single-line, the generated file read back
   * in text mode is exactly the rewritten template: one output line per
   * template line.
   */
  lemma GunicornFileLines(template: string, d: Descriptor)
    requires SingleLineValues(d)
    ensures ReadLines(GunicornFile(template, d)) == RewriteGunicornLines(ReadLines(template), d)
    ensures |ReadLines(GunicornFile(template, d))| == |ReadLines(template)|
  {
    var lines := ReadLines(template);
    var out := RewriteGunicornLines(lines, d);
    forall i | 0 <= i < |out|
      ensures IsLine(out[i]) && Avoids(out[i], '\r') && (i < |out| - 1 ==> Terminated(out[i]))
    {
      RewrittenLineWellFormed(lines[i], d);
    }
    ReadJoinLines(out);
  }

  /**
   * With single-line descriptor values, generating `gunicorn.conf.py` from an
   * already generated file reproduces that file.
   */
  lemma GunicornFileIdempotent(template: string, d: Descriptor)
    requires SingleLineValues(d)
    ensures GunicornFile(GunicornFile(template, d), d) == GunicornFile(template, d)
  {
    GunicornFileLines(template, d);
    GunicornRewriteIdempotent(ReadLines(template), d);
  }

  // ---------------------------------------------------------------------------
  // The settings rewrite

  /** The `BASE_DIR` assignment for a settings module one package deeper. */
  const NewBaseDir := "BASE_DIR = " + BaseDirValue

  /** Its right-hand side: three `dirname` calls around the absolute module path. */
  const BaseDirValue := Dirname + Dirname + Dirname + "os.path.abspath(" + "__file__))))"

  const Dirname := "os.path.dirname("

  lemma BaseDirValuePlain()
    ensures OneLine(BaseDirValue) && NoSpace(BaseDirValue)
  {
    assert OneLine(Dirname) && NoSpace(Dirname);
    assert OneLine("os.path.abspath(") && NoSpace("os.path.abspath(");
    assert OneLine("__file__))))") && NoSpace("__file__))))");
    ConcatOneLine(Dirname, Dirname);
    ConcatOneLine(Dirname + Dirname, Dirname);
    ConcatOneLine(Dirname + Dirname + Dirname, "os.path.abspath(");
    ConcatOneLine(Dirname + Dirname + Dirname + "os.path.abspath(", "__file__))))");
    ConcatAvoids(Dirname, Dirname, ' ');
    ConcatAvoids(Dirname + Dirname, Dirname, ' ');
    ConcatAvoids(Dirname + Dirname + Dirname, "os.path.abspath(", ' ');
    ConcatAvoids(Dirname + Dirname + Dirname + "os.path.abspath(", "__file__))))", ' ');
  }

  lemma NewBaseDirSingleLine()
    ensures OneLine(NewBaseDir)
  {
    BaseDirValuePlain();
    assert OneLine("BASE_DIR = ");
    ConcatOneLine("BASE_DIR = ", BaseDirValue);
  }

  /** One iteration of the settings loop. */
  function RewriteSettingsLine(line: string): (r: string)
    ensures AssignsTo(line, "BASE_DIR") ==> r == NewBaseDir + "\n"
    ensures !AssignsTo(line, "BASE_DIR") ==> r == line
  {
    match AssignName(line)
    case Some(name) => if name == "BASE_DIR" then NewBaseDir + "\n" else line
    case None => line
  }

  /** `settings.py` rewritten line for line into `settings/base.py`. */
  function RewriteSettingsLines(lines: seq<string>): (r: seq<string>)
    ensures |r| == |lines|
    ensures forall i :: 0 <= i < |lines| && AssignsTo(lines[i], "BASE_DIR") ==> r[i] == NewBaseDir + "\n"
    ensures forall i :: 0 <= i < |lines| && !AssignsTo(lines[i], "BASE_DIR") ==> r[i] == lines[i]
  {
    seq(|lines|, i requires 0 <= i < |lines| => RewriteSettingsLine(lines[i]))
  }

  /** The replacement line is itself an assignment to exactly `BASE_DIR`. */
  lemma NewBaseDirAssignsBaseDir()
    ensures AssignsTo(NewBaseDir + "\n", "BASE_DIR")
  {
    BaseDirValuePlain();
    NewBaseDirSingleLine();
    AssignsPlainValue("BASE_DIR", BaseDirValue);
  }

  /** Rewriting an already rewritten settings line changes nothing. */
  lemma SettingsLineIdempotent(line: string)
    ensures RewriteSettingsLine(RewriteSettingsLine(line)) == RewriteSettingsLine(line)
  {
    NewBaseDirAssignsBaseDir();
  }

  /** The contents written to `settings/base.py` for the contents of `settings.py`. */
  function SettingsFile(source: string): (r: string)
    ensures (forall i :: 0 <= i < |ReadLines(source)| ==> !AssignsTo(ReadLines(source)[i], "BASE_DIR"))
            ==> r == Translate(source)
  {
    var lines := ReadLines(source);
    var out := RewriteSettingsLines(lines);
    assert (forall i :: 0 <= i < |lines| ==> !AssignsTo(lines[i], "BASE_DIR")) ==> out == lines;
    Join(out)
  }

  /**
   * The new base module read back in text mode is exactly the rewritten
   * settings module: it has as many lines as `settings.py`, and only the
   * `BASE_DIR` assignments differ.
   */
  lemma SettingsFileLines(source: string)
    ensures ReadLines(SettingsFile(source)) == RewriteSettingsLines(ReadLines(source))
    ensures |ReadLines(SettingsFile(source))| == |ReadLines(source)|
  {
    var lines := ReadLines(source);
    var out := RewriteSettingsLines(lines);
    NewBaseDirSingleLine();
    TerminatedLine(NewBaseDir);
    forall i | 0 <= i < |out|
      ensures IsLine(out[i]) && Avoids(out[i], '\r') && (i < |out| - 1 ==> Terminated(out[i]))
    {
      if AssignsTo(lines[i], "BASE_DIR") {
        assert out[i] == NewBaseDir + "\n";
      } else {
        assert out[i] == lines[i];
      }
    }
    ReadJoinLines(out);
  }

  /**
   * Splitting an already split settings module again changes nothing: the
   * `BASE_DIR` line the first pass wrote is replaced by itself.
   */
  lemma SettingsFileIdempotent(source: string)
    ensures SettingsFile(SettingsFile(source)) == SettingsFile(source)
  {
    var once := RewriteSettingsLines(ReadLines(source));
    SettingsFileLines(source);
    forall i | 0 <= i < |once|
      ensures RewriteSettingsLines(once)[i] == once[i]
    {
      SettingsLineIdempotent(ReadLines(source)[i]);
    }
    assert RewriteSettingsLines(once) == once;
  }

  /**
   * A lone `\r` ends a line when the file is read, just as `\n` does (a `\r`
   * directly followed by `\n` would be one line end, hence a non-empty second
   * line).
   */
  lemma CarriageReturnLines(first: string, second: string)
    requires OneLine(first) && OneLine(second) && second != ""
    ensures ReadLines(first + "\r" + second + "\n") == [first + "\n", second + "\n"]
  {
    TerminatedLine(first);
    TerminatedLine(second);
    var lines := [first + "\n", second + "\n"];
    CarriageReturnTranslated(first, second);
    JoinTwo(first + "\n", second + "\n");
    SplitJoinLines(lines);
  }

  lemma CarriageReturnTranslated(first: string, second: string)
    requires OneLine(first) && OneLine(second) && second != ""
    ensures Translate(first + "\r" + second + "\n") == (first + "\n") + (second + "\n")
  {
    var rest := "\r" + (second + "\n");
    assert first + "\r" + second + "\n" == first + rest;
    TranslatePlainPrefix(first, rest);
    assert rest[0] == '\r' && rest[1] == second[0] && rest[1..] == second + "\n";
    ConcatAvoids(second, "\n", '\r');
    TranslateKeepsPlain(second + "\n");
    assert Translate(rest) == "\n" + (second + "\n");
  }

  /** A Windows line end `\r\n` is read as one line end, for any two lines. */
  lemma CarriageReturnNewlineLines(first: string, second: string)
    requires OneLine(first) && OneLine(second)
    ensures ReadLines(first + "\r\n" + second + "\n") == [first + "\n", second + "\n"]
  {
    TerminatedLine(first);
    TerminatedLine(second);
    var lines := [first + "\n", second + "\n"];
    CarriageReturnNewlineTranslated(first, second);
    JoinTwo(first + "\n", second + "\n");
    SplitJoinLines(lines);
  }

  lemma CarriageReturnNewlineTranslated(first: string, second: string)
    requires OneLine(first) && OneLine(second)
    ensures Translate(first + "\r\n" + second + "\n") == (first + "\n") + (second + "\n")
  {
    var rest := "\r\n" + (second + "\n");
    assert first + "\r\n" + second + "\n" == first + rest;
    TranslatePlainPrefix(first, rest);
    assert rest[0] == '\r' && rest[1] == '\n' && rest[2..] == second + "\n";
    ConcatAvoids(second, "\n", '\r');
    TranslateKeepsPlain(second + "\n");
    assert Translate(rest) == "\n" + (second + "\n");
  }

  /**
   * An old Mac line end separates lines as a newline does: a `BASE_DIR`
   * assignment after it is still found and replaced, and the line before it
   * is written with `\n`.
   */
  lemma SettingsFileAfterCarriageReturn(first: string, second: string)
    requires OneLine(first) && OneLine(second)
    requires !AssignsTo(first + "\n", "BASE_DIR") && AssignsTo(second + "\n", "BASE_DIR")
    ensures SettingsFile(first + "\r" + second + "\n") == first + "\n" + NewBaseDir + "\n"
  {
    var source := first + "\r" + second + "\n";
    CarriageReturnLines(first, second);
    RewriteBaseDirSecond(first + "\n", second + "\n");
    JoinTwo(first + "\n", NewBaseDir + "\n");
    assert SettingsFile(source) == Join(RewriteSettingsLines(ReadLines(source)));
  }

  lemma RewriteBaseDirSecond(a: string, b: string)
    requires !AssignsTo(a, "BASE_DIR") && AssignsTo(b, "BASE_DIR")
    ensures RewriteSettingsLines([a, b]) == [a, NewBaseDir + "\n"]
  {
    var out := RewriteSettingsLines([a, b]);
    assert out[0] == a && out[1] == NewBaseDir + "\n";
  }
}

=== FILE: text.dfy ===
/**
 * Text primitives the deploy command relies on: reading a file in text mode
 * (universal newlines) and splitting it into the lines Python's file
 * iteration yields, the `(.*) = (.*)` assignment match used
 * by both template rewriters, and the decimal rendering of integers that
 * `'{}'.format(n)` performs.
 */
module Text {
  import opened Wrappers

  /** Lines written one after another, as repeated `writelines(line)` does. */
  function Join(lines: seq<string>): string
    decreases |lines|
  {
    if lines == [] then "" else lines[0] + Join(lines[1..])
  }

  lemma JoinTwo(x: string, y: string)
    ensures Join([x, y]) == x + y
  {
    assert [x, y][1..] == [y];
    assert [y][1..] == [];
    assert Join([y]) == y + "" == y;
  }

  /** Writing is in order: the lines up to `i` come first, the rest after them. */
  lemma {:induction false} JoinInOrder(lines: seq<string>, i: nat)
    requires i <= |lines|
    ensures Join(lines[..i]) + Join(lines[i..]) == Join(lines)
    decreases i
  {
    if i > 0 {
      JoinInOrder(lines[1..], i - 1);
      assert lines[1..][..i - 1] == lines[..i][1..];
      assert lines[1..][i - 1..] == lines[i..];
      assert Join(lines[..i]) == lines[0] + Join(lines[..i][1..]);
    } else {
      assert lines[..0] == [] && lines[0..] == lines;
    }
  }

  /** Index of the first newline in `s`, or `|s|` when there is none. */
  function LineEnd(s: string): (k: nat)
    ensures k <= |s|
  {
    if s == [] || s[0] == '\n' then 0 else 1 + LineEnd(s[1..])
  }

  /** No newline comes before the line end, and one stands at it unless the text ends first. */
  lemma {:induction false} LineEndIsFirstNewline(s: string)
    ensures forall j :: 0 <= j < LineEnd(s) ==> s[j] != '\n'
    ensures LineEnd(s) < |s| ==> s[LineEnd(s)] == '\n'
    decreases |s|
  {
    if s != [] && s[0] != '\n' {
      var rest := s[1..];
      LineEndIsFirstNewline(rest);
      assert forall j :: 1 <= j < |s| ==> s[j] == rest[j - 1];
    }
  }

  /** A line as file iteration yields it: non-empty, a newline at most as its last character. */
  predicate IsLine(l: string) {
    |l| > 0 && forall j :: 0 <= j < |l| - 1 ==> l[j] != '\n'
  }

  predicate Terminated(l: string) {
    |l| > 0 && l[|l| - 1] == '\n'
  }

  /** What iterating over a text file yields: lines, each but the last ending in a newline. */
  predicate IsLineSeq(lines: seq<string>) {
    && (forall i :: 0 <= i < |lines| ==> IsLine(lines[i]))
    && (forall i :: 0 <= i < |lines| - 1 ==> Terminated(lines[i]))
  }

  /** `s` holds no occurrence of the character `c`. */
  predicate Avoids(s: string, c: char) {
    c !in s
  }

  lemma ConcatAvoids(a: string, b: string, c: char)
    requires Avoids(a, c) && Avoids(b, c)
    ensures Avoids(a + b, c)
  {
    assert forall j :: |a| <= j < |a + b| ==> (a + b)[j] == b[j - |a|];
  }

  /** The text-mode lines of a `\n`-only text, each keeping its trailing newline. */
  function SplitLines(s: string): (lines: seq<string>)
    decreases |s|
  {
    if s == [] then []
    else
      if LineEnd(s) == |s| then [s] else [s[..LineEnd(s) + 1]] + SplitLines(s[LineEnd(s) + 1..])
  }

  /** What splitting yields are lines, each but the last ending in a newline. */
  lemma {:induction false} SplitLinesWellFormed(s: string)
    ensures IsLineSeq(SplitLines(s))
    decreases |s|
  {
    if s != [] {
      var k := LineEnd(s);
      LineEndIsFirstNewline(s);
      if k < |s| {
        var head, tail := s[..k + 1], s[k + 1..];
        SplitLinesStep(s);
        SplitLinesWellFormed(tail);
        var rest := SplitLines(tail);
        var lines := [head] + rest;
        assert forall j :: 0 <= j <= k ==> head[j] == s[j];
        assert IsLine(head) && Terminated(head);
        assert forall i :: 1 <= i < |lines| ==> lines[i] == rest[i - 1];
      } else {
        assert SplitLines(s) == [s];
      }
    }
  }

  /**
   * The universal-newline translation of reading a file in text mode: a
   * `\r\n` pair and a lone `\r` each become one `\n`; every other character
   * is kept. Text without `\r` is read as it is.
   */
  function Translate(s: string): (t: string)
    ensures Avoids(t, '\r')
    ensures |t| <= |s|
    decreases |s|
  {
    if s == [] then []
    else if s[0] == '\r' then
      if |s| > 1 && s[1] == '\n' then "\n" + Translate(s[2..]) else "\n" + Translate(s[1..])
    else
      [s[0]] + Translate(s[1..])
  }

  /** Text without `\r` is read as it is. */
  lemma {:induction false} TranslateKeepsPlain(s: string)
    requires Avoids(s, '\r')
    ensures Translate(s) == s
    decreases |s|
  {
    if s != [] {
      assert s == [s[0]] + s[1..];
      TranslateKeepsPlain(s[1..]);
    }
  }

  /** What `for line in open(path, 'r')` yields for a file holding `s`. */
  function ReadLines(s: string): (lines: seq<string>)
    ensures IsLineSeq(lines)
    ensures forall i :: 0 <= i < |lines| ==> Avoids(lines[i], '\r')
    ensures Join(lines) == Translate(s)
  {
    SplitLinesWellFormed(Translate(s));
    JoinSplitLines(Translate(s));
    JoinAvoids(SplitLines(Translate(s)), '\r');
    SplitLines(Translate(s))
  }

  /** Splitting loses nothing: writing the lines back reproduces the file. */
  lemma {:induction false} JoinSplitLines(s: string)
    ensures Join(SplitLines(s)) == s
    decreases |s|
  {
    if s != [] {
      var k := LineEnd(s);
      if k < |s| {
        JoinSplitStep(s);
        JoinSplitLines(s[k + 1..]);
        assert s == s[..k + 1] + s[k + 1..];
      } else {
        assert SplitLines(s) == [s] + [];
        JoinCons(s, []);
      }
    }
  }

  /** Writing the lines of `s` writes its first line, then the lines of the rest. */
  lemma JoinSplitStep(s: string)
    requires s != [] && LineEnd(s) < |s|
    ensures Join(SplitLines(s)) == s[..LineEnd(s) + 1] + Join(SplitLines(s[LineEnd(s) + 1..]))
  {
    SplitLinesStep(s);
    JoinCons(s[..LineEnd(s) + 1], SplitLines(s[LineEnd(s) + 1..]));
  }

  lemma SplitLinesStep(s: string)
    requires s != [] && LineEnd(s) < |s|
    ensures SplitLines(s) == [s[..LineEnd(s) + 1]] + SplitLines(s[LineEnd(s) + 1..])
  {
  }

  lemma JoinCons(line: string, rest: seq<string>)
    ensures Join([line] + rest) == line + Join(rest)
  {
    assert ([line] + rest)[1..] == rest;
  }

  /** The first newline of `l + t` is the last character of the terminated line `l`. */
  lemma LineEndOfTerminated(l: string, t: string)
    requires IsLine(l) && Terminated(l)
    ensures LineEnd(l + t) == |l| - 1
  {
    var s := l + t;
    LineEndIsFirstNewline(s);
    assert forall j :: 0 <= j < |l| ==> s[j] == l[j];
  }

  /** Any sequence of well-formed lines is exactly what splitting their concatenation yields. */
  lemma {:induction false} SplitJoinLines(lines: seq<string>)
    requires IsLineSeq(lines)
    ensures SplitLines(Join(lines)) == lines
    decreases |lines|
  {
    if lines != [] {
      var l := lines[0];
      var rest := lines[1..];
      var s := Join(lines);
      assert IsLine(l);
      assert s == l + Join(rest);
      if rest == [] {
        assert s == l;
        if Terminated(l) {
          LineEndOfTerminated(l, "");
          assert s[..|l|] == l;
          assert s[|l|..] == [];
        } else {
          LineEndIsFirstNewline(s);
          assert LineEnd(s) == |s|;
        }
      } else {
        assert Terminated(l);
        assert IsLineSeq(rest) by {
          forall i | 0 <= i < |rest| ensures IsLine(rest[i]) {
            assert rest[i] == lines[i + 1];
          }
          forall i | 0 <= i < |rest| - 1 ensures Terminated(rest[i]) {
            assert rest[i] == lines[i + 1];
          }
        }
        LineEndOfTerminated(l, Join(rest));
        assert s[..|l|] == l;
        assert s[|l|..] == Join(rest);
        SplitJoinLines(rest);
      }
    }
  }

  /** The written text holds `c` exactly when one of the lines does. */
  lemma {:induction false} JoinAvoids(lines: seq<string>, c: char)
    ensures Avoids(Join(lines), c) <==> forall i :: 0 <= i < |lines| ==> Avoids(lines[i], c)
    decreases |lines|
  {
    if lines != [] {
      var rest := lines[1..];
      JoinAvoids(rest, c);
      assert forall i :: 1 <= i < |lines| ==> lines[i] == rest[i - 1];
      assert Join(lines) == lines[0] + Join(rest);
      assert c in lines[0] + Join(rest) <==> c in lines[0] || c in Join(rest);
    }
  }

  /**
   * Well-formed lines without `\r`, written one after another and read back
   * in text mode, are exactly the lines written.
   */
  lemma ReadJoinLines(lines: seq<string>)
    requires IsLineSeq(lines)
    requires forall i :: 0 <= i < |lines| ==> Avoids(lines[i], '\r')
    ensures ReadLines(Join(lines)) == lines
  {
    JoinAvoids(lines, '\r');
    TranslateKeepsPlain(Join(lines));
    SplitJoinLines(lines);
  }

  /** A prefix without `\r` is read as it is. */
  lemma {:induction false} TranslatePlainPrefix(a: string, b: string)
    requires Avoids(a, '\r')
    ensures Translate(a + b) == a + Translate(b)
    decreases |a|
  {
    if a == [] {
      assert a + b == b;
    } else {
      var tail := a[1..];
      assert a == [a[0]] + tail;
      assert a + b == [a[0]] + (tail + b);
      TranslatePlainPrefix(tail, b);
      TranslatePlainHead(a[0], tail + b);
    }
  }

  /** A first character other than `\r` is read as it is. */
  lemma TranslatePlainHead(c: char, rest: string)
    requires c != '\r'
    ensures Translate([c] + rest) == [c] + Translate(rest)
  {
    assert ([c] + rest)[1..] == rest;
  }

  /** Reading turns a Windows and an old Mac line end each into one `\n`. */
  lemma TranslateLineEnds()
    ensures Translate("a\r\nb\rc") == "a\nb\nc"
  {
    assert Translate("c") == "c";
    assert Translate("\rc") == "\nc";
    assert Translate("b\rc") == "b\nc";
    assert Translate("\r\nb\rc") == "\nb\nc";
  }

  /** A file holding those line ends iterates as three lines. */
  lemma ReadLinesTranslates()
    ensures ReadLines("a\r\nb\rc") == ["a\n", "b\n", "c"]
  {
    TranslateLineEnds();
    var t := "a\nb\nc";
    assert LineEnd(t) == 1;
    assert t[..2] == "a\n" && t[2..] == "b\nc";
    assert LineEnd("b\nc") == 1;
    assert "b\nc"[..2] == "b\n" && "b\nc"[2..] == "c";
    assert LineEnd("c") == 1;
    assert SplitLines("c") == ["c"];
    assert SplitLines("b\nc") == ["b\n", "c"];
  }

  // ---------------------------------------------------------------------------
  // The assignment match `re.match(r'(.*) = (.*)', line)`

  /** The part of a line `.` can match: everything before its first newline. */
  function Head(line: string): (h: string)
    ensures h <= line
    ensures forall j :: 0 <= j < |h| ==> h[j] != '\n'
    ensures |h| < |line| ==> line[|h|] == '\n'
  {
    LineEndIsFirstNewline(line);
    line[..LineEnd(line)]
  }

  /** The text a match sees in a terminated line is the line without its newline. */
  lemma HeadOfTerminated(body: string)
    requires Avoids(body, '\n')
    ensures Head(body + "\n") == body
  {
    var line := body + "\n";
    var h := Head(line);
    assert forall j :: 0 <= j < |body| ==> line[j] == body[j];
    assert line[|body|] == '\n';
    assert forall j :: 0 <= j < |h| ==> h[j] == line[j];
    assert |h| == |body|;
  }

  /** The separator `" = "` starts at index `i` of `s`. */
  predicate SepAt(s: string, i: int) {
    0 <= i && i + 3 <= |s| && s[i] == ' ' && s[i + 1] == '=' && s[i + 2] == ' '
  }

  /** The match succeeds: the separator occurs before the first newline. */
  ghost predicate Matches(line: string) {
    exists i :: SepAt(Head(line), i)
  }

  /**
   * The match succeeds with `name` as its first group: the greedy `(.*)` stops
   * at the last separator before the first newline, so `name` is everything
   * in front of that separator.
   */
  ghost predicate AssignsTo(line: string, name: string) {
    var h := Head(line);
    && |name| + 3 <= |h|
    && h[..|name|] == name
    && SepAt(h, |name|)
    && forall j :: |name| < j ==> !SepAt(h, j)
  }

  /**
   * A terminated line `name = value` whose value holds no space assigns to
   * exactly `name`: the separator after the name is the last one.
   */
  lemma AssignsPlainValue(name: string, value: string)
    requires Avoids(name + " = " + value, '\n')
    requires Avoids(value, ' ')
    ensures AssignsTo(name + " = " + value + "\n", name)
  {
    var body := name + " = " + value;
    HeadOfTerminated(body);
    assert body[..|name|] == name;
    assert SepAt(body, |name|);
    assert forall j :: |name| + 3 <= j < |body| ==> body[j] == value[j - |name| - 3];
    assert forall j :: |name| < j ==> !SepAt(body, j);
  }

  /** The last separator starting below `n`, if any. */
  function LastSepBelow(s: string, n: nat): (r: Option<nat>)
    requires n <= |s|
    ensures r.Some? ==> r.value < n && SepAt(s, r.value)
    ensures r.Some? ==> forall j :: r.value < j < n ==> !SepAt(s, j)
    ensures r.None? ==> forall j :: j < n ==> !SepAt(s, j)
  {
    if n == 0 then None
    else if SepAt(s, n - 1) then Some(n - 1)
    else LastSepBelow(s, n - 1)
  }

  /** A line names at most one assigned variable. */
  lemma AssignsToUnique(line: string, a: string, b: string)
    requires AssignsTo(line, a) && AssignsTo(line, b)
    ensures a == b
  {
    var h := Head(line);
    assert SepAt(h, |a|) && SepAt(h, |b|);
  }

  /** Group 1 of the assignment match, or `None` when the line does not match. */
  function AssignName(line: string): (r: Option<string>)
    ensures r.Some? <==> Matches(line)
    ensures forall name :: AssignsTo(line, name) <==> r == Some(name)
  {
    var h := Head(line);
    match LastSepBelow(h, |h|)
    case None => None
    case Some(i) =>
      var name := h[..i];
      assert AssignsTo(line, name);
      assert forall other :: AssignsTo(line, other) ==> other == name by {
        forall other | AssignsTo(line, other) ensures other == name {
          AssignsToUnique(line, other, name);
        }
      }
      Some(name)
  }

  // ---------------------------------------------------------------------------
  // Decimal rendering of integers, as `'{}'.format(n)` writes them

  predicate IsDigit(c: char) {
    '0' as int <= c as int <= '9' as int
  }

  function DigitValue(c: char): (d: nat)
    requires IsDigit(c)
    ensures d < 10
  {
    c as int - '0' as int
  }

  function DigitChar(d: nat): (c: char)
    requires d < 10
    ensures IsDigit(c) && DigitValue(c) == d
  {
    ('0' as int + d) as char
  }

  /** The decimal digits of `n`, most significant first, without leading zeros. */
  function NatToString(n: nat): (s: string)
    ensures |s| > 0 && forall i :: 0 <= i < |s| ==> IsDigit(s[i])
    ensures |s| > 1 ==> s[0] != '0'
  {
    if n < 10 then [DigitChar(n)] else NatToString(n / 10) + [DigitChar(n % 10)]
  }

  /** The value of a string of decimal digits. */
  function DigitsValue(s: string): nat
    requires forall i :: 0 <= i < |s| ==> IsDigit(s[i])
  {
    if s == [] then 0 else DigitsValue(s[..|s| - 1]) * 10 + DigitValue(s[|s| - 1])
  }

  /** Python's `str` of an integer: an optional minus sign, then the digits. */
  function IntToString(i: int): string {
    if i < 0 then "-" + NatToString(-i) else NatToString(i)
  }

  /** Reads back a decimal integer in the form `IntToString` writes. */
  function ParseInt(s: string): Option<int> {
    if |s| > 0 && s[0] == '-' then
      var t := s[1..];
      if |t| > 0 && forall i :: 0 <= i < |t| ==> IsDigit(t[i]) then Some(0 - DigitsValue(t)) else None
    else if |s| > 0 && forall i :: 0 <= i < |s| ==> IsDigit(s[i]) then Some(DigitsValue(s))
    else None
  }

  lemma {:induction false} NatToStringRoundTrip(n: nat)
    ensures DigitsValue(NatToString(n)) == n
  {
    if n >= 10 {
      var s := NatToString(n);
      NatToStringRoundTrip(n / 10);
      assert s[..|s| - 1] == NatToString(n / 10);
    }
  }

  /** The rendered integer reads back as itself, so distinct integers render differently. */
  lemma IntToStringRoundTrip(i: int)
    ensures ParseInt(IntToString(i)) == Some(i)
  {
    if i < 0 {
      NatToStringRoundTrip(-i);
      assert IntToString(i)[1..] == NatToString(-i);
    } else {
      NatToStringRoundTrip(i);
    }
  }

  lemma IntToStringInjective(a: int, b: int)
    requires IntToString(a) == IntToString(b)
    ensures a == b
  {
    IntToStringRoundTrip(a);
    IntToStringRoundTrip(b);
  }
}

=== FILE: wrappers.dfy ===
/** Optional values, used wherever the source works with `None` or a failed match. */
module Wrappers {

  datatype Option<+T> = None | Some(value: T)
}
